=== FILE: README.md ===
# Claude Desktop bridge, client, WSL helpers and credential sync — a Dafny model

This project models the core of the Claude_Automation tools.

- **Bridge.** `claude-desktop-bridge.py` is a Windows daemon that executes actions a client drops as JSON records into a `pending` directory. An action can add or remove an MCP server in the desktop application's configuration, or restart `Claude.exe`. Each record is stamped `completed` or `failed` and renamed into the directory of that name.
- **Client.** `claude-desktop-client.py` checks the bridge's heartbeat, writes a record, and polls for its outcome.
- **WSL helpers.** `src/utils/wsl/wsl_utils.py` builds `wsl.exe` command lines, parses `wsl --list --verbose`, selects distributions, converts mount paths and quotes shell words.
- **Credential sync.** `scripts/sync-wsl-auth.py` picks a source distribution that holds the credentials file and copies the file to every other distribution.
- **Calculator.** `scripts/claude-test-files/calculator.py` is a small fixture: a recursive factorial and a calculator with a history.

How the model represents the program:
- Documents are a JSON value datatype, and objects are maps.
- Python exceptions are data: a kind plus the text `str(e)` gives.
- Effects on files and processes are explicit traces, and what the environment answers is passed in as a parameter. This covers the filesystem, psutil, the clock and `wsl.exe`.
- The queue is three maps from file name to content: `pending`, `completed` and `failed`.

Modules:

| file | module | models |
|---|---|---|
| base.dfy | Base | `Option`/`Result`, `str.strip`, `isspace`, ASCII `lower`/`upper`, `in` on strings, `str(int)` |
| json_value.dfy | JsonValue | the decoded JSON value, truthiness, `dict.get` |
| exceptions.dfy | Exceptions | exception kinds and texts |
| bridge_config.dfy | BridgeConfig | `_add_mcp_server`, `_remove_mcp_server`, `_config_modifier` |
| bridge_restart.dfy | BridgeRestart | `_restart_claude` as a signal trace |
| bridge_queue.dfy | BridgeQueue | `execute_action`, `process_action_file`, the start-up sweep |
| client.dfy | Client | `check_bridge_status`, the `send_action` record, `wait_for_completion`, and a client-plus-bridge end-to-end lemma |
| shell_quote.dfy | ShellQuote | the `'\''` escaping rule. This is the single-quote rule of IEEE Std 1003.1-2017, Shell Command Language, section 2.2.2 "Single-Quotes" |
| wsl_command.dfy | WslCommand | the `run_command`/`_run_wsl_command` argument vector |
| wsl_path.dfy | WslPath | `convert_path_to_windows` |
| wsl_list.dfy | WslList | `list_distributions` parsing, `get_default_distribution`, `get_ubuntu_distribution` |
| wsl_probe.dfy | WslProbe | `file_exists` / `directory_exists` |
| sync_auth.dfy | SyncAuth | `read_credentials`, `write_credentials`, `extract_api_key`, `sync_credentials_between_all_distributions` |
| calculator.dfy | Calculator | `calculate_factorial`, `Calculator` |

Facts about the bridge's code that the model keeps:
- The action tags are `add_mcp_server`, `remove_mcp_server` and `restart_claude`. The server table is `mcpServers`.
- Removal touches only `mcpServers`; no other key of the configuration is read or changed.
- A server name is checked only with `isinstance(name, str)`, so an empty name is accepted.
- Pending records are swept once, at start-up (claude-desktop-bridge.py:203-204). There is no periodic re-scan: the five-second loop only rewrites the status file.
- The client writes its record with a plain `open(..., 'w')`. An existing pending file of the same name is overwritten, not refused.
- Removal rewrites the configuration (and writes a backup) even when it reports "not found".
- A pending file that vanishes before it is read still produces a `failed` record `{"id": stem, ...}` at its path.
- A process is restarted only when its name is exactly `Claude.exe` and its executable is the same file as the configured path. An exception from the scan other than NoSuchProcess, AccessDenied or FileNotFoundError fails the action before any signal. A `terminate` that raises fails the action before any kill or launch. A `kill` that raises fails it after every termination and before the launch. A launch that raises fails it last. The failure record carries the exception text.
- Every file is written with `open(..., 'w')`, which empties it before `json.dump` writes. A dump that raises part-way leaves a file `json.load` rejects. For the configuration file this makes every later edit fail with a read error. For a record's write-back the record stays in `pending`, damaged, and is failed as `{"id": stem}` the next time it is processed.
- Only lines 67-80 of `list_distributions` are live. Lines 119-140 of `wsl_utils.py` follow a `return` and never run.

## Model

| member | source | states |
|---|---|---|
| BridgeConfig.AddServer | claude-desktop-bridge.py:151-158 | A non-string `name` or a non-object `config` raises ValueError with the fixed message. Otherwise `mcpServers[name]` becomes `config`; the table is created when absent. Every other top-level key and every other server is kept. The message names the server. Success holds iff the parameters are valid and the table is usable. |
| BridgeConfig.RemoveServer | claude-desktop-bridge.py:160-168 | A non-string `name` raises ValueError. Otherwise the name is absent from the table afterwards and every other key is kept. The message is "removed" iff the popped value was present and truthy, and "not found" otherwise. |
| BridgeConfig.RemoveUndoesAdd | claude-desktop-bridge.py:151-168 | Adding then removing a server gives the original table without that name. The removal says "removed" iff the added configuration was non-empty, so a server whose config is `{}` is deleted but reported "not found". |
| BridgeConfig.RemoveAbsentIsIdentity | claude-desktop-bridge.py:165-168 | Removing an absent name returns the document unchanged with the "not found" message. It is not an error. |
| BridgeConfig.RemoveIdempotent | claude-desktop-bridge.py:160-168 | A second removal of the same name leaves the document as the first left it and reports "not found". |
| BridgeConfig.AddIdempotent | claude-desktop-bridge.py:157-158 | Adding the same server twice gives the same result as adding it once. |
| BridgeConfig.ConfigModifier | claude-desktop-bridge.py:128-149 | A missing file raises FileNotFoundError and an unreadable one a read error, both before any write. The backup of the document as loaded is always the first write. A backup whose `open` raises stops with that error and nothing written. A backup whose dump is cut short leaves an unreadable backup and stops. A rejected edit raises its own error after the backup, with nothing else written. A save whose `open` raises leaves only the backup. A save cut short leaves an unreadable configuration. Success holds iff the file loads, both writes land and the edit is valid; the result is then the edit's message. |
| BridgeConfig.TruncatedSaveBlocksEdits | claude-desktop-bridge.py:134-146 | After a save cut short, the next edit of any kind raises the load error before writing anything. |
| BridgeConfig.ModifierEffects | claude-desktop-bridge.py:130-146 | On success the configuration is exactly the edited document and the backups gain the earlier document under the clock's stamp. A failure leaves the configuration as it was, except a save cut short, which leaves it unreadable. A backup that lands holds the loaded document even when the edit is then rejected. One cut short holds unreadable text. A missing file, an unreadable one, or a backup whose `open` raises leaves the backups unchanged. |
| BridgeRestart.Found | claude-desktop-bridge.py:173-181 | The collected pids are exactly those whose name is `Claude.exe`, whose exe is non-empty and whose exe is the same file as the configured one. Processes whose queries raise NoSuchProcess, AccessDenied or FileNotFoundError are skipped. |
| BridgeRestart.ScanError | claude-desktop-bridge.py:174-181 | The scan ends with the first exception that escapes the `except` clause, in table order, and there is none iff no evaluated query lets one escape. |
| BridgeRestart.ScanEscapeFailsAction | claude-desktop-bridge.py:174-181 | An exception that escapes the scan (a PermissionError from `samefile`, say) fails the action with that exception, before any signal or launch. |
| BridgeRestart.SignalEach | claude-desktop-bridge.py:186-193 | Each pid receives the signal in order. The first pid whose signal raises ends the sequence, which succeeds iff no pid fails. |
| BridgeRestart.RestartShape | claude-desktop-bridge.py:183-197 | With no failing signal and no exception escaping the scan, the trace is: terminate every match, then kill the survivors, then one launch. |
| BridgeRestart.RestartLaunchesOnce | claude-desktop-bridge.py:183-198 | With no failing signal and no exception escaping the scan, the trace ends with the launch and contains exactly one launch, even when no process matched; in that case the launch is the whole trace. The action succeeds iff the launch does, and otherwise fails with the launch's own error text. |
| BridgeRestart.RestartSignalsMatching | claude-desktop-bridge.py:178-193 | With no failing signal and no exception escaping the scan, a pid is terminated iff it matched, and killed iff it matched and was still alive after the grace period. |
| BridgeRestart.RestartTerminatesFirst | claude-desktop-bridge.py:186-188 | With no failing signal and no exception escaping the scan, the trace opens with the terminations of the matches, in process-table order. |
| BridgeRestart.TerminateFailureSkipsLaunch | claude-desktop-bridge.py:186-197 | When terminating a matched process raises, the action fails and no launch happens; after a clean scan the failure carries the signal's own error text. |
| BridgeRestart.KillFailureSkipsLaunch | claude-desktop-bridge.py:186-197 | After a clean scan, when every termination works but killing a surviving match raises, the action fails with that signal's error text and no launch happens. Every match was terminated, and the trace holds a kill of a pid whose kill raises. |
| BridgeQueue.Route | claude-desktop-bridge.py:119-126 | Exactly the three tag strings dispatch, each to its own handler. |
| BridgeQueue.ExecuteAction | claude-desktop-bridge.py:113-126 | Any other tag raises "Unknown action type" with no side effect; so does a missing tag, as `unknown`. Configuration writes happen only for the two server tags and signals only for the restart tag. Each handler receives `params`, or `{}` when it is missing. |
| BridgeQueue.StemOfRecordName | claude-desktop-bridge.py:87 | The stem of the client's `<id>.json` is the id. |
| BridgeQueue.Move | claude-desktop-bridge.py:108 | A rename moves the entry under the same name and keeps the directories disjoint. It changes no other entry and loses no name. |
| BridgeQueue.Finish | claude-desktop-bridge.py:103-111 | The outcome follows from the write and the rename. An `open` that raises strands the record with the queue unchanged. A dump cut short leaves the pending file unreadable and does not rename it. A write that lands followed by a failing rename, or an existing destination, leaves the rewritten record in `pending`. A landed write and a working rename move the record to its terminal directory under the same name. |
| BridgeQueue.ProcessActionFile | claude-desktop-bridge.py:84-111 | Only the entry with the processed name changes. Terminal entries are kept and disjointness is preserved. A moved record is in its terminal directory and not in `pending`. A record stranded unwritten leaves the queue as it was. One stranded after its write holds the stamped record in `pending`. A damaged one holds unreadable text there. An escaped exception changes nothing. |
| BridgeQueue.RecordContents | claude-desktop-bridge.py:87-101 | A success is stamped `completed` with `result`; a failure `failed` with `error = str(e)`. Every other field is preserved. An unreadable file becomes `{"id": stem}` plus the failure fields. A document that is not an object escapes the handler. |
| BridgeQueue.ObjectRecordMoves | claude-desktop-bridge.py:103-111 | A readable object record is moved out of `pending` when its write-back and rename succeed and no terminal file has its name. |
| BridgeQueue.WriteBackDecides | claude-desktop-bridge.py:84-111 | For every record that does not escape: it is stranded unwritten iff the `open` raised, and damaged iff the dump was cut short. It is stranded written iff the write landed and the rename failed or the destination existed. It is moved iff the write landed, the rename worked and no destination existed. |
| BridgeQueue.DamagedRecordFailsNextTime | claude-desktop-bridge.py:84-111 | A record whose write-back was cut short is failed the next time it is processed, as `{"id": stem}` with the load error. |
| BridgeQueue.SweptAdvance | claude-desktop-bridge.py:203-204 | Handling the next listed file keeps the sweep invariant: earlier outcomes stay true and later files are untouched. |
| BridgeQueue.SweptStep | claude-desktop-bridge.py:203-204 | Processing the next listed name keeps the sweep invariant. |
| BridgeQueue.SweepNext | claude-desktop-bridge.py:203-204 | One step looks at exactly one more listed name. It gets an outcome iff it matches `*.json`, and the earlier outcomes are kept. |
| BridgeQueue.SweepTo | claude-desktop-bridge.py:203-204 | After `k` names there are at most `k` outcomes. There are fewer only when the last one escaped, and no earlier one escaped. A name has an outcome iff it matches `*.json`. |
| BridgeQueue.SweepStops | claude-desktop-bridge.py:203-204 | Once an exception has escaped, later names are never processed. |
| BridgeQueue.SweepSwept | claude-desktop-bridge.py:203-204 | Every prefix of the sweep keeps the sweep invariant. |
| BridgeQueue.SweepFacts | claude-desktop-bridge.py:203-204 | After the sweep, names are never lost and the directories stay disjoint. Terminal files are kept and a moved record is out of `pending`. Skipped names, and names after an escape, stay pending unchanged. |
| BridgeQueue.SweepOne | claude-desktop-bridge.py:203-204 | One loop iteration computes exactly the sweep over one more name. |
| BridgeQueue.InitialSweep | claude-desktop-bridge.py:203-204 | The loop computes exactly `Sweep`. Each listed `*.json` file is processed once, in listing order, with its own environment, and the first escaping exception ends the sweep. |
| Client.CheckBridgeStatus | claude-desktop-client.py:33-48 | A missing file means not responsive, and an unreadable one a read error. The bridge is responsive iff the document has a numeric heartbeat at most 15 s old (a missing timestamp counts as 0). Then the status text defaults to `unknown`. A non-object document or a non-numeric timestamp raises. |
| Client.StaleBoundary | claude-desktop-client.py:42-44 | A heartbeat exactly 15 s old is responsive and one 16 s old is not, because the comparison is strict. |
| Client.Payload | claude-desktop-client.py:52-60 | The record has exactly the six keys, `status` is `pending`, it carries the id and the tag, and `params` defaults to `{}`. |
| Client.Submit | claude-desktop-client.py:62-66 | A landed write puts the payload at `pending/<id>.json`, overwriting any file of that name. An `open` that raises changes nothing. A dump cut short leaves unreadable text there. The terminal directories are untouched. |
| Client.DamagedSubmissionFails | claude-desktop-client.py:62-66 | A submission cut short is failed by the bridge as `{"id": id}` with the load error, and no action runs. |
| Client.SubmittedRecordRoutes | claude-desktop-client.py:53-60 | The bridge routes a submitted record to the handler its tag names, with the submitted parameters. |
| Client.WaitForCompletion | claude-desktop-client.py:77-108 | The result is a timeout iff no poll found a file. Otherwise it is the decision of the first poll that did. A completed record is one read from the completed file. A failed record is one read from the failed file while the completed file was absent, so the completed file is checked first. |
| Client.WaitStopsAtFirstHit | claude-desktop-client.py:84-103 | The first poll that finds a file decides the result, whatever the later polls would see. An unreadable result file returns None at once. |
| Client.PollFindsRecord | claude-desktop-client.py:84-100 | A poll that sees the record in exactly one terminal directory returns that record. |
| Client.ProcessedRecordArrives | claude-desktop-bridge.py:84-111 | A readable object record, processed with working writes, ends up in exactly one terminal directory, and the client's next poll returns it. |
| Client.SubmitProcessWait | claude-desktop-client.py:50-71 | End to end: a submitted action is processed into a terminal directory under its own name and still carries its id. The queue gains only that name and stays disjoint. The client's poll returns the record. |
| Client.Returned | claude-desktop-client.py:77-108 | The caller receives the record iff the wait found one, the exception iff the wait raised, and `None` otherwise. |
| Client.SendAction | claude-desktop-client.py:62-75 | A write that raises is caught and gives `None`. After a landed write the caller receives exactly what the wait gives: a record found by the first hitting poll is returned. A returned record is an object that some poll read from a terminal file. An exception reaching the caller is the AttributeError of `.get` on a non-object result, raised only after a landed write. No file found gives `None`. |
| ShellQuote.Escape | src/utils/wsl/wsl_utils.py:186 | Each quote grows by three characters, and text without quotes is unchanged. |
| ShellQuote.QuotedPrefix | src/utils/wsl/wsl_utils.py:229-232 | Under the POSIX single-quote rule, the escaped text between quotes, followed by any word, denotes the text followed by that word's value. |
| ShellQuote.QuoteArgDenotes | src/utils/wsl/wsl_utils.py:310-311 | `'` + escaped `s` + `'` denotes exactly `s`. |
| ShellQuote.EscapeInjective | src/utils/wsl/wsl_utils.py:186 | Different texts never escape to the same word. |
| WslCommand.RunArgv | src/utils/wsl/wsl_utils.py:58-64 | The vector starts with `wsl.exe`. The command comes last, unchanged, with `--` just before it. The length shows that the distribution flag is present only for a non-empty distribution. |
| WslCommand.RunArgvRoundTrip | src/utils/wsl/wsl_utils.py:44-64 | The vector gives back the command exactly. It gives back the distribution exactly when a non-empty one was passed. |
| WslPath.Replaced | src/utils/wsl/wsl_utils.py:172 | Every occurrence of the replaced character becomes the replacement, every other character is kept, and none of the replaced character is left. |
| WslPath.MountMatch | src/utils/wsl/wsl_utils.py:163 | A match yields a lower-case drive letter and a tail that is empty or starts with `/` and contains no newline. The path is `/mnt/`, the letter and the tail, with at most one final newline. |
| WslPath.ConvertPathToWindows | src/utils/wsl/wsl_utils.py:150-173 | None or empty input gives None. A non-matching path is returned unchanged. Any result is non-empty. |
| WslPath.MountPathMatches | src/utils/wsl/wsl_utils.py:163 | Every `/mnt/<a-z>` path with an allowed tail matches with exactly that letter and tail. |
| WslPath.ConvertMountPath | src/utils/wsl/wsl_utils.py:163-173 | A mount path becomes the upper-case drive, a colon, and the tail with slashes turned into backslashes. |
| WslPath.ConvertRoundTrip | src/utils/wsl/wsl_utils.py:163-173 | Mapping the drive form back gives the original mount path, when the tail holds no backslash. |
| WslPath.SlashedBackslashed | src/utils/wsl/wsl_utils.py:172 | Replacing `/` by `\` is undone by the reverse replacement on any text without backslashes. |
| WslPath.NonMountPathsUnchanged | src/utils/wsl/wsl_utils.py:163-166 | `/mnt/cd`, `/mnt/C/x`, `/home/u` and a tail with an inner newline come back unchanged. |
| WslPath.FinalNewlineDropped | src/utils/wsl/wsl_utils.py:163-173 | `/mnt/c` gives `C:`. A final newline is absorbed by `$`, so `/mnt/c/x` plus a newline gives `C:\x`. |
| WslList.SplitLines | src/utils/wsl/wsl_utils.py:71 | No line contains a line boundary, and only the empty text has no lines. |
| WslList.ParseLine | src/utils/wsl/wsl_utils.py:75-79 | A line yields an entry whose three fields are non-empty and space-free. `is_default` holds iff the stripped line starts with `*`. |
| WslList.ListDistributions | src/utils/wsl/wsl_utils.py:67-80 | A non-zero exit or at most one line gives `[]`. Otherwise the header is skipped and the remaining lines are parsed in order, unmatched ones dropped. |
| WslList.ParseRender | src/utils/wsl/wsl_utils.py:75-79 | Every well-formed entry, printed as a listing line with or without the default star, parses back to itself. |
| WslList.ListRoundTrip | src/utils/wsl/wsl_utils.py:67-80 | A header plus one line per well-formed entry parses back to exactly those entries, in order. |
| WslList.StarFallsBackIntoName | src/utils/wsl/wsl_utils.py:76 | A starred line with only two fields after the star matches with the star as the name. It is then marked default with name `*`, as the regular expression's backtracking does. |
| WslList.GetDefault | src/utils/wsl/wsl_utils.py:82-87 | The result is None iff no entry is marked default; otherwise it is the first default. |
| WslList.PreferredAreUbuntu | src/utils/wsl/wsl_utils.py:100 | An entry whose name equals a preferred version (ignoring case) has a name that contains `ubuntu`. |
| WslList.GetUbuntu | src/utils/wsl/wsl_utils.py:89-110 | The result is None iff no name contains `ubuntu`. Any result is a list member with such a name. An Ubuntu default wins. Then come exact matches in the order 24.04, 22.04, plain, and then the first Ubuntu entry. |
| WslProbe.ProbeScript | src/utils/wsl/wsl_utils.py:228-232 | The path enters the `sh -c` script as one word that denotes exactly the path. |
| WslProbe.ProbeArgv | src/utils/wsl/wsl_utils.py:232-233 | The probe runs `sh -c <script>` through `run_command`. |
| WslProbe.MissingFileReadsAsPresent | src/utils/wsl/wsl_utils.py:232-234 | As written, the helper reports every probed path present, including a missing one. |
| WslProbe.FileExistsDecidesProbe | src/utils/wsl/wsl_utils.py:232-234 | With the intended decision, the helper reports exactly whether the object is there. |
| SyncAuth.ResolveUsername | scripts/sync-wsl-auth.py:180-185 | A non-empty argument wins, then a non-empty `USERNAME`. The result is None iff both are missing or empty. |
| SyncAuth.ReadCredentials | scripts/sync-wsl-auth.py:61-78 | Credentials are returned iff the existence test, the read and the decoding all succeed. They are then the decoded document. |
| SyncAuth.ReadCommands | scripts/sync-wsl-auth.py:61-67 | The first command is `test -f` on the credentials path, run through `run_command` on the given distribution. `cat` of the same path follows only when the test passed. |
| SyncAuth.ExtractApiKey | scripts/sync-wsl-auth.py:153-168 | Missing or falsy credentials give `""`. A missing level gives `""`. Otherwise the result is `claudeAiOauth.accessToken`. It raises AttributeError iff a level that is reached is not an object. |
| SyncAuth.WriteScript | scripts/sync-wsl-auth.py:107-110 | `echo` receives one word that denotes exactly the JSON text. |
| SyncAuth.WriteCredentials | scripts/sync-wsl-auth.py:91-119 | `mkdir -p` runs first. The write runs only if the `mkdir` succeeded. The result is True iff both succeed. |
| SyncAuth.FindSource | scripts/sync-wsl-auth.py:203-221 | The source is the first candidate whose file exists and whose credentials are truthy. The result is None iff there is no such candidate. |
| SyncAuth.Targets | scripts/sync-wsl-auth.py:239-241 | The targets are exactly the listed names other than the source. |
| SyncAuth.AllWritten | scripts/sync-wsl-auth.py:239-249 | The result is True iff every target's write succeeds. |
| SyncAuth.SyncCredentials | scripts/sync-wsl-auth.py:170-249 | False, with no writes, when there is no user, no distribution, no usable source or no key. The source is a usable candidate and writes go to exactly the other listed distributions. The result is True iff a user resolves, a distribution is listed, the chosen source's key is truthy, and every other distribution gets both its `mkdir` and its write. |
| SyncAuth.SyncFrom | scripts/sync-wsl-auth.py:188-249 | Once the source search is done: no source gives False. A key lookup that raises is reported as that error, and a falsy key as "no API key". Otherwise the sync goes ahead iff the key is truthy, writing to exactly the other listed distributions. The result is True iff all of them succeed. |
| SyncAuth.UbuntuPreferred | scripts/sync-wsl-auth.py:203-211 | An Ubuntu distribution with usable credentials is always the source. |
| SyncAuth.SourceNotWritten | scripts/sync-wsl-auth.py:240-241 | The source never receives a write. |
| SyncAuth.FindSourceProbeInsensitive | scripts/sync-wsl-auth.py:208-219 | Any two existence probes that say yes wherever the file is present choose the same source. |
| SyncAuth.ProbeDefectMasked | scripts/sync-wsl-auth.py:208-219 | The sync outcome is the same with `file_exists` as written and with the corrected helper. |
| Calculator.Factorial | scripts/claude-test-files/calculator.py:7-11 | The factorial is at least 1 for every integer, negative ones included. |
| Calculator.FactorialIterative | scripts/claude-test-files/calculator.py:7-11 | An upward loop computes the same value as the recursion. |
| Calculator.FactorialDivisible | scripts/claude-test-files/calculator.py:9-11 | Every `k` with `1 <= k <= n` divides `n!`, leaving a whole cofactor. |
| Calculator.Add | scripts/claude-test-files/calculator.py:19-22 | Returns `a + b` and appends exactly one history line, which parses back to the two operands, `+` and the result. |
| Calculator.Multiply | scripts/claude-test-files/calculator.py:24-27 | Returns `a * b` and appends exactly one history line, which parses back to the two operands, `*` and the result. |
| Calculator.EntryParses | scripts/claude-test-files/calculator.py:19-27 | Every history line `"a op b = r"` splits into five words and parses back to exactly that operation and its value. |
| Base.DecimalRoundTrip | scripts/claude-test-files/calculator.py:21 | The decimal text `str(n)` of any integer, negative ones included, parses back to `n`. |
| Calculator.Run | scripts/claude-test-files/calculator.py:16-27 | Starting from the empty history, the history has one line per call, in call order. |
| Calculator.RunSteps | scripts/claude-test-files/calculator.py:16-27 | No calls give the fresh calculator, and each further call changes the history exactly as `add` or `multiply` does. |
| Calculator.HistoryRecordsCalls | scripts/claude-test-files/calculator.py:16-27 | Line `i` of the history parses back to call `i` and its result. |
| Calculator.HistoryAppendOnly | scripts/claude-test-files/calculator.py:21-30 | Later calls never change earlier lines, and `get_history` gives the lines recorded so far. |
| Calculator.FixtureRun | scripts/claude-test-files/calculator.py:32-35 | `add(5, 3)` returns 8 and `multiply(4, 6)` returns 24. The history is then `["5 + 3 = 8", "4 * 6 = 24"]`. |

## Left out

- Event plumbing is not modelled: the watchdog observer, the asyncio loop, signal handling and the status heartbeat writer (claude-desktop-bridge.py:45-82, 206-246). The sweep at start-up is the only processing modelled.
- The race in which the bridge reads a record before the client has finished writing it. This is cross-process concurrency.
- psutil queries, `samefile`, `wait_procs`, `Popen` and `sleep` are observations. The kill order of `wait_procs`' survivors is a set, because psutil returns them unordered.
- Timestamps are whole seconds. Floats are not modelled, and the backup name is the integer stamp.
- JSON text is not modelled. `json.load` and `json.dumps` become an abstract decoded value, or an unreadable text, so key order and number formatting are lost.
- `str()` of a list or an object inside an error text is abbreviated. Exception texts that come from the operating system, psutil or `Popen` are parameters: the text for a pending file that vanished, for a failing signal, for a failing launch, and the load error of a cut-short file.
- Lower-casing is ASCII only. `wsl.exe`'s UTF-16 output is taken as already decoded text.
- `update_windows_bridge` only logs a warning when it fails (scripts/sync-wsl-auth.py:234-236), so the batch file it writes is not modelled.
- The argparse `main()` functions of the client and of the sync script are command-line glue. In the client, `add-server`'s positional `command` shares the sub-command destination, so that branch appears unreachable.
- Other helpers in `wsl_utils.py` have no logic to state: `check_process_running`, `kill_process`, `create_directory`, the copy helpers, `get_wsl_ip`, `install_package`, the environment-variable helpers, `is_running_as_admin` and `is_wsl_installed`. `convert_path_to_wsl` is an observation (`converted`) in the probe.
- `scripts/wsl_integration_example.py` and `src/utils/wsl/__init__.py` are a demo driver and re-exports. They are not part of this model.
- Logging is not modelled.
- BridgeConfig.ModifierEffects: a dump cut short is modelled as text `json.load` rejects. A write that fails only when the file is closed could leave a complete document, and the model does not cover that. The load error's text is a parameter.
- BridgeQueue.Finish: the same holds for the record's write-back.
- Client.Submit: the same holds for the client's write of the record.
- Calculator.Add: operands are integers, as in the fixture's own calls (calculator.py:34-35). Python also accepts floats and other types, so `add(2.5, 1)` records `"2.5 + 1 = 3.5"`, and the model does not cover that. The same holds for Calculator.Multiply.
- Calculator.HistoryAppendOnly: `get_history` returns the live list (calculator.py:29-30), not a copy. A caller that changes it changes the history, and a list handed out earlier also shows later calls. The model returns the lines as a value.
- WslList.ListDistributions: when `wsl.exe` is missing, `_run_wsl_command` raises WSLException (src/utils/wsl/wsl_utils.py:53-56). Neither the listing nor the sync catches it. The model starts from the exit code and output of a run that took place.
- WslList.GetUbuntu: the source lists the distributions twice, once at src/utils/wsl/wsl_utils.py:91 and again inside `get_default_distribution` (line 84). The model takes one list for both.
- SyncAuth.SyncCredentials: `get_ubuntu_distribution` lists the distributions again. The model assumes that second listing equals the first.
- SyncAuth.WriteScript: the credentials path is put between quotes without escaping. A user name containing `'` would break the script. The model states the script's text, not the shell meaning of the path part.
- Calculator.Factorial: Python raises RecursionError for very large `n`, which the model ignores. Integers are unbounded, as in Python.

A pending record whose JSON is not an object (for example `[1]`) is kept as written:
- `execute_action` raises AttributeError.
- The `except` block then fails on `action['status'] = ...` with a TypeError that escapes `process_action_file`.
- The file stays in `pending`, and during the start-up sweep the exception ends `start`.

`BridgeQueue.RecordContents` and `BridgeQueue.SweepTo` state this as the `Escaped` outcome.

## Findings

| source | as written | input that shows it | evidently intended | confidence | as-written member | corrected member |
|---|---|---|---|---|---|---|
| src/utils/wsl/wsl_utils.py:232-234 | `file_exists` returns `"exists" in result.stdout`, and the script prints `not exists` for a missing file; `directory_exists` (259-261) is the same | any path that is not there: stdout `not exists\n` contains `exists`, so the helper returns True | True only when the script printed `exists` | high, not executed | WslProbe.MissingFileReadsAsPresent | WslProbe.FileExistsDecidesProbe |

The credential sync is not affected: `read_credentials` runs its own `test -f`, so a wrongly reported file is never chosen as the source (`SyncAuth.ProbeDefectMasked`).

=== FILE: base.dfy ===
/** Shared building blocks: optional values, results, and the few pieces of
    Python's `str` behaviour the modelled scripts rely on (whitespace,
    stripping, ASCII lower-casing, substring and suffix tests, decimal
    rendering of integers). */
module Base {

  datatype Option<+T> = None | Some(value: T)

  datatype Result<+T, +E> = Ok(value: T) | Err(error: E)

  /** `str.isspace()` for one character; the regular-expression class `\s`
      and `str.strip()` use the same set. */
  predicate IsSpace(c: char) {
    || c == ' '
    || '\t' <= c <= '\r'
    || '\U{1c}' <= c <= '\U{1f}'
    || c == '\U{85}' || c == '\U{a0}' || c == '\U{1680}'
    || '\U{2000}' <= c <= '\U{200a}'
    || c == '\U{2028}' || c == '\U{2029}' || c == '\U{202f}'
    || c == '\U{205f}' || c == '\U{3000}'
  }

  /** Every character of `s` is a non-space character. */
  predicate NoSpace(s: string) {
    forall i :: 0 <= i < |s| ==> !IsSpace(s[i])
  }

  function StripLeft(s: string): (r: string)
    ensures |r| <= |s| && r == s[|s| - |r|..]
    ensures r == [] || !IsSpace(r[0])
    ensures forall i :: 0 <= i < |s| - |r| ==> IsSpace(s[i])
  {
    if |s| > 0 && IsSpace(s[0]) then StripLeft(s[1..]) else s
  }

  function StripRight(s: string): (r: string)
    ensures |r| <= |s| && r == s[..|r|]
    ensures r == [] || !IsSpace(r[|r| - 1])
    ensures forall i :: |r| <= i < |s| ==> IsSpace(s[i])
  {
    if |s| > 0 && IsSpace(s[|s| - 1]) then StripRight(s[..|s| - 1]) else s
  }

  /** `str.strip()` with no argument. */
  function Strip(s: string): string {
    StripRight(StripLeft(s))
  }

  /** A string whose first and last characters are not white space is its own strip. */
  lemma StripFixed(s: string)
    requires s != [] && !IsSpace(s[0]) && !IsSpace(s[|s| - 1])
    ensures Strip(s) == s
  {
  }

  function LowerChar(c: char): char {
    if 'A' <= c <= 'Z' then (c as int - 'A' as int + 'a' as int) as char else c
  }

  function UpperChar(c: char): char {
    if 'a' <= c <= 'z' then (c as int - 'a' as int + 'A' as int) as char else c
  }

  /** `str.lower()`, restricted to the ASCII letters. */
  function Lower(s: string): (r: string)
    ensures |r| == |s|
  {
    seq(|s|, i requires 0 <= i < |s| => LowerChar(s[i]))
  }

  /** `sub in s`. */
  predicate Contains(s: string, sub: string)
    decreases |s|
  {
    sub <= s || (|s| > 0 && Contains(s[1..], sub))
  }

  /** An occurrence of `sub` starting at position `k` makes `sub in s` true. */
  lemma {:induction false} ContainsAt(s: string, sub: string, k: nat)
    requires k <= |s| && sub <= s[k..]
    ensures Contains(s, sub)
    decreases k
  {
    if k > 0 {
      assert s[1..][k - 1..] == s[k..];
      ContainsAt(s[1..], sub, k - 1);
    } else {
      assert s[0..] == s;
    }
  }

  /** `s.endswith(suffix)`. */
  predicate EndsWith(s: string, suffix: string) {
    |suffix| <= |s| && s[|s| - |suffix|..] == suffix
  }

  predicate IsDigit(c: char) {
    '0' <= c <= '9'
  }

  function DigitChar(d: nat): (c: char)
    requires d < 10
    ensures IsDigit(c)
  {
    ('0' as int + d) as char
  }

  /** The value of a decimal digit character. */
  function DigitValue(c: char): (r: Option<nat>)
    ensures r.Some? <==> IsDigit(c)
    ensures r.Some? ==> r.value < 10 && DigitChar(r.value) == c
  {
    if IsDigit(c) then Some(c as int - '0' as int) else None
  }

  /** The decimal digits of `n`, most significant first. */
  function Digits(n: nat): (r: string)
    ensures r != []
    decreases n
  {
    if n < 10 then [DigitChar(n)] else Digits(n / 10) + [DigitChar(n % 10)]
  }

  /** `str(n)` for a Python `int`. */
  function Decimal(n: int): (r: string)
    ensures r != []
  {
    if n < 0 then "-" + Digits(-n) else Digits(n)
  }

  /** The value of a non-empty run of decimal digits; `None` for anything else. */
  function ParseDigits(s: string): (r: Option<nat>)
    decreases |s|
  {
    if s == [] then None
    else
      var last := DigitValue(s[|s| - 1]);
      if last.None? then None
      else if |s| == 1 then last
      else match ParseDigits(s[..|s| - 1])
        case None => None
        case Some(m) => Some(10 * m + last.value)
  }

  /** `int(s)` for the texts `str` produces: an optional minus sign and digits. */
  function ParseDecimal(s: string): Option<int> {
    if s != [] && s[0] == '-' then
      match ParseDigits(s[1..])
      case None => None
      case Some(m) => Some(-(m as int))
    else
      match ParseDigits(s)
      case None => None
      case Some(m) => Some(m)
  }

  /** Every character of `str(n)` is a digit, except a leading minus sign. */
  lemma {:induction false} DigitsAreDigits(n: nat)
    ensures forall i :: 0 <= i < |Digits(n)| ==> IsDigit(Digits(n)[i])
    decreases n
  {
    if n >= 10 {
      DigitsAreDigits(n / 10);
    }
  }

  lemma DecimalChars(n: int)
    ensures forall i :: 0 <= i < |Decimal(n)| ==> IsDigit(Decimal(n)[i]) || (i == 0 && Decimal(n)[i] == '-')
  {
    if n < 0 {
      DigitsAreDigits(-n);
      assert forall i :: 1 <= i < |Decimal(n)| ==> Decimal(n)[i] == Digits(-n)[i - 1];
    } else {
      DigitsAreDigits(n);
    }
  }

  /** Reading the digits of `n` back gives `n`. */
  lemma {:induction false} DigitsRoundTrip(n: nat)
    ensures ParseDigits(Digits(n)) == Some(n)
    decreases n
  {
    var s := Digits(n);
    if n < 10 {
      assert DigitValue(DigitChar(n)) == Some(n);
    } else {
      DigitsRoundTrip(n / 10);
      assert s[..|s| - 1] == Digits(n / 10);
      assert s[|s| - 1] == DigitChar(n % 10);
      assert DigitValue(DigitChar(n % 10)) == Some(n % 10);
    }
  }

  /** `int(str(n)) == n`: the decimal text of an integer determines it. */
  lemma DecimalRoundTrip(n: int)
    ensures ParseDecimal(Decimal(n)) == Some(n)
  {
    if n < 0 {
      DigitsRoundTrip(-n);
      assert Decimal(n)[1..] == Digits(-n);
    } else {
      DigitsRoundTrip(n);
      DigitsAreDigits(n);
      assert IsDigit(Digits(n)[0]);
    }
  }
}

=== FILE: bridge_config.dfy ===
/** The bridge's configuration edits: `_add_mcp_server`, `_remove_mcp_server`
    and the `_config_modifier` sequence that loads the desktop application's
    configuration, writes a backup, applies an edit and saves the result. */
module BridgeConfig {
  import opened Base
  import opened JsonValue
  import opened Exceptions

  /** The top-level key holding the named server configurations. */
  const ServersKey: string := "mcpServers"

  const AddParamsError := PyException(ValueError, "Missing or invalid 'name' or 'config' for add_mcp_server.")
  const RemoveParamsError := PyException(ValueError, "Missing or invalid 'name' for remove_mcp_server.")
  const ConfigMissingError := PyException(FileNotFound, "claude_desktop_config.json not found.")

  function AddedMessage(name: string): string { "Server '" + name + "' added/updated." }
  function RemovedMessage(name: string): string { "Server '" + name + "' removed." }
  function NotFoundMessage(name: string): string { "Server '" + name + "' not found." }

  /** An edited document together with the message reported back to the client. */
  datatype Mutation = Mutation(doc: Json, message: string)

  /** `params.get(key)`: `None` when the key is absent. */
  function Param(params: map<string, Json>, key: string): Json {
    GetOr(params, key, Null)
  }

  /** The server table of a document: empty when the key is absent or not an object. */
  function Servers(doc: Json): map<string, Json> {
    if doc.Obj? && ServersKey in doc.fields && doc.fields[ServersKey].Obj?
    then doc.fields[ServersKey].fields
    else map[]
  }

  /** The server table is absent or an object, so `setdefault`/`pop` can use it. */
  predicate ServersUsable(doc: Json) {
    doc.Obj? && (ServersKey !in doc.fields || doc.fields[ServersKey].Obj?)
  }

  /** `after` is `before` with its server table replaced by `servers`, every other
      top-level key kept as it was. */
  predicate ServersReplaced(before: Json, after: Json, servers: map<string, Json>)
    requires before.Obj?
  {
    && after.Obj?
    && after.fields.Keys == before.fields.Keys + {ServersKey}
    && after.fields[ServersKey] == Obj(servers)
    && forall k :: k in before.fields && k != ServersKey ==> after.fields[k] == before.fields[k]
  }

  /** `_add_mcp_server`: validates `name` (any string, the empty one included) and
      `config` (an object), then upserts `mcpServers[name] = config`, creating the
      table when it is absent. */
  function AddServer(config: Json, params: Json): (r: Result<Mutation, PyException>)
    ensures !params.Obj? ==> r == Err(NoAttribute(params, "get"))
    ensures (params.Obj? && !(Param(params.fields, "name").Str? && Param(params.fields, "config").Obj?))
              ==> r == Err(AddParamsError)
    ensures r.Ok? <==>
              && params.Obj? && Param(params.fields, "name").Str? && Param(params.fields, "config").Obj?
              && ServersUsable(config)
    ensures r.Ok? ==>
              var name := params.fields["name"].s;
              && ServersReplaced(config, r.value.doc, Servers(config)[name := params.fields["config"]])
              && r.value.message == AddedMessage(name)
  {
    if !params.Obj? then Err(NoAttribute(params, "get"))
    else
      var name := Param(params.fields, "name");
      var server := Param(params.fields, "config");
      if !name.Str? || !server.Obj? then Err(AddParamsError)
      else if !config.Obj? then Err(NoAttribute(config, "setdefault"))
      else if ServersKey in config.fields && !config.fields[ServersKey].Obj? then
        Err(NoItemAssignment(config.fields[ServersKey]))
      else
        var servers := GetOr(config.fields, ServersKey, Obj(map[])).fields;
        Ok(Mutation(Obj(config.fields[ServersKey := Obj(servers[name.s := server])]), AddedMessage(name.s)))
  }

  /** `_remove_mcp_server`: validates `name`, pops it from the server table and
      reports "removed" only when the popped value was truthy. */
  function RemoveServer(config: Json, params: Json): (r: Result<Mutation, PyException>)
    ensures !params.Obj? ==> r == Err(NoAttribute(params, "get"))
    ensures params.Obj? && !Param(params.fields, "name").Str? ==> r == Err(RemoveParamsError)
    ensures r.Ok? <==> params.Obj? && Param(params.fields, "name").Str? && ServersUsable(config)
    ensures r.Ok? ==>
              var name := params.fields["name"].s;
              && (if ServersKey in config.fields
                  then ServersReplaced(config, r.value.doc, Servers(config) - {name})
                  else r.value.doc == config)
              && (r.value.message == RemovedMessage(name) <==>
                    name in Servers(config) && Truthy(Servers(config)[name]))
              && (r.value.message == RemovedMessage(name) || r.value.message == NotFoundMessage(name))
  {
    if !params.Obj? then Err(NoAttribute(params, "get"))
    else
      var name := Param(params.fields, "name");
      if !name.Str? then Err(RemoveParamsError)
      else if !config.Obj? then Err(NoAttribute(config, "get"))
      else if ServersKey !in config.fields then Ok(Mutation(config, NotFoundMessage(name.s)))
      else
        var table := config.fields[ServersKey];
        if table.Arr? then Err(PyException(TypeError, "pop expected at most 1 argument, got 2"))
        else if !table.Obj? then Err(NoAttribute(table, "pop"))
        else
          var popped := GetOr(table.fields, name.s, Null);
          var doc := Obj(config.fields[ServersKey := Obj(table.fields - {name.s})]);
          if Truthy(popped) then Ok(Mutation(doc, RemovedMessage(name.s)))
          else Ok(Mutation(doc, NotFoundMessage(name.s)))
  }

  /** The parameter object `{"name": name}` or `{"name": name, "config": config}`. */
  function NameParams(name: string): Json { Obj(map["name" := Str(name)]) }
  function AddParams(name: string, server: Json): Json {
    Obj(map["name" := Str(name), "config" := server])
  }

  /** Adding then removing a server leaves the table without it, and the removal
      is reported as such exactly when the added configuration was non-empty. */
  lemma RemoveUndoesAdd(config: Json, name: string, server: map<string, Json>)
    requires ServersUsable(config)
    ensures AddServer(config, AddParams(name, Obj(server))).Ok?
    ensures
      var added := AddServer(config, AddParams(name, Obj(server))).value.doc;
      var removed := RemoveServer(added, NameParams(name));
      && removed.Ok?
      && ServersReplaced(config, removed.value.doc, Servers(config) - {name})
      && (removed.value.message == RemovedMessage(name) <==> server != map[])
  {
    var added := AddServer(config, AddParams(name, Obj(server))).value.doc;
    assert Servers(added) == Servers(config)[name := Obj(server)];
    var removed := RemoveServer(added, NameParams(name));
    assert Servers(config)[name := Obj(server)] - {name} == Servers(config) - {name};
    assert removed.value.doc.fields.Keys == config.fields.Keys + {ServersKey};
  }

  /** Removing an absent server changes nothing and is not an error. */
  lemma RemoveAbsentIsIdentity(config: Json, name: string)
    requires ServersUsable(config)
    requires name !in Servers(config)
    ensures RemoveServer(config, NameParams(name)) == Ok(Mutation(config, NotFoundMessage(name)))
  {
    if ServersKey in config.fields {
      var table := config.fields[ServersKey];
      assert table.fields - {name} == table.fields;
      assert config.fields[ServersKey := Obj(table.fields)] == config.fields;
    }
  }

  /** Removing twice is the same as removing once; the second call reports "not found". */
  lemma RemoveIdempotent(config: Json, name: string)
    requires ServersUsable(config)
    ensures
      var once := RemoveServer(config, NameParams(name));
      && once.Ok?
      && RemoveServer(once.value.doc, NameParams(name)) == Ok(Mutation(once.value.doc, NotFoundMessage(name)))
  {
    var once := RemoveServer(config, NameParams(name));
    assert ServersUsable(once.value.doc);
    assert name !in Servers(once.value.doc);
    RemoveAbsentIsIdentity(once.value.doc, name);
  }

  /** Adding the same server twice gives the same document as adding it once. */
  lemma AddIdempotent(config: Json, name: string, server: map<string, Json>)
    requires ServersUsable(config)
    ensures
      var p := AddParams(name, Obj(server));
      var once := AddServer(config, p);
      && once.Ok?
      && AddServer(once.value.doc, p) == once
  {
    var p := AddParams(name, Obj(server));
    var once := AddServer(config, p).value.doc;
    var table := Servers(config)[name := Obj(server)];
    assert Servers(once) == table;
    assert table[name := Obj(server)] == table;
    assert once.fields[ServersKey := Obj(table)] == once.fields;
  }

  // ---------------------------------------------------------------------------
  // The load / backup / apply / save sequence.

  /** The configuration file as the bridge finds it. */
  datatype ConfigFile = Missing | Unparsable(detail: string) | Loaded(doc: Json)

  /** The content of a JSON file the bridge writes: a document, or text that
      `json.load` rejects with `detail`. */
  datatype Record = Unreadable(detail: string) | Doc(json: Json)

  /** How one `with open(path, 'w') as f: json.dump(doc, f)` ends. `open`
      empties the file before `json.dump` writes, so the two failures differ:
      an `open` that raises (`FailsWith`) leaves the file as it was, while a
      dump that raises part-way (`Truncated`) leaves an empty or cut-off text
      that `json.load` later rejects with `loadError`. */
  datatype Io = Succeeds | FailsWith(detail: string) | Truncated(detail: string, loadError: string)

  /** The file writes `_config_modifier` performs, in order. */
  datatype ConfigWrite =
    | WroteBackup(stamp: int, content: Record)
    | WroteConfig(content: Record)

  datatype Edit = AddEdit | RemoveEdit

  datatype ModifyRun = ModifyRun(writes: seq<ConfigWrite>, outcome: Result<string, PyException>)

  function ApplyEdit(edit: Edit, config: Json, params: Json): Result<Mutation, PyException> {
    match edit
    case AddEdit => AddServer(config, params)
    case RemoveEdit => RemoveServer(config, params)
  }

  /** The exception a failing write raises. */
  function WriteError(io: Io): PyException
    requires !io.Succeeds?
  {
    PyException(WriteFailure, io.detail)
  }

  /** What a write of `doc` that ends as `io` leaves in the file, if it touches it. */
  function Written(doc: Json, io: Io): Option<Record> {
    match io
    case Succeeds => Some(Doc(doc))
    case FailsWith(_) => None
    case Truncated(_, loadError) => Some(Unreadable(loadError))
  }

  /** `_config_modifier`: a missing file raises before anything is written; a file
      that cannot be loaded raises before the backup; the backup holds the
      document as loaded and is written before the edited document, and a
      rejected edit raises after the backup. `now` is the whole-second clock
      reading that names the backup. */
  function ConfigModifier(edit: Edit, params: Json, file: ConfigFile, now: int, backup: Io, save: Io): (r: ModifyRun)
    ensures file.Missing? ==> r == ModifyRun([], Err(ConfigMissingError))
    ensures file.Unparsable? ==> r == ModifyRun([], Err(PyException(ReadFailure, file.detail)))
    ensures file.Loaded? && backup.FailsWith? ==> r == ModifyRun([], Err(WriteError(backup)))
    ensures file.Loaded? && backup.Truncated? ==>
              r == ModifyRun([WroteBackup(now, Unreadable(backup.loadError))], Err(WriteError(backup)))
    ensures file.Loaded? && backup.Succeeds? && ApplyEdit(edit, file.doc, params).Err? ==>
              r == ModifyRun([WroteBackup(now, Doc(file.doc))], Err(ApplyEdit(edit, file.doc, params).error))
    ensures file.Loaded? && backup.Succeeds? && ApplyEdit(edit, file.doc, params).Ok? && save.FailsWith? ==>
              r == ModifyRun([WroteBackup(now, Doc(file.doc))], Err(WriteError(save)))
    ensures file.Loaded? && backup.Succeeds? && ApplyEdit(edit, file.doc, params).Ok? && save.Truncated? ==>
              r == ModifyRun([WroteBackup(now, Doc(file.doc)), WroteConfig(Unreadable(save.loadError))], Err(WriteError(save)))
    ensures r.outcome.Ok? <==>
              file.Loaded? && backup.Succeeds? && ApplyEdit(edit, file.doc, params).Ok? && save.Succeeds?
    ensures r.outcome.Ok? ==>
              var m := ApplyEdit(edit, file.doc, params).value;
              r.writes == [WroteBackup(now, Doc(file.doc)), WroteConfig(Doc(m.doc))] && r.outcome.value == m.message
  {
    match file
    case Missing => ModifyRun([], Err(ConfigMissingError))
    case Unparsable(detail) => ModifyRun([], Err(PyException(ReadFailure, detail)))
    case Loaded(doc) =>
      match Written(doc, backup)
      case None => ModifyRun([], Err(WriteError(backup)))
      case Some(copy) =>
        var saved := [WroteBackup(now, copy)];
        if !backup.Succeeds? then ModifyRun(saved, Err(WriteError(backup)))
        else match ApplyEdit(edit, doc, params)
          case Err(e) => ModifyRun(saved, Err(e))
          case Ok(m) =>
            match Written(m.doc, save)
            case None => ModifyRun(saved, Err(WriteError(save)))
            case Some(content) =>
              var run := saved + [WroteConfig(content)];
              if save.Succeeds? then ModifyRun(run, Ok(m.message)) else ModifyRun(run, Err(WriteError(save)))
  }

  /** The file a write leaves, read back by `json.load`. */
  function AsConfig(content: Record): ConfigFile {
    match content
    case Doc(doc) => Loaded(doc)
    case Unreadable(detail) => Unparsable(detail)
  }

  /** The configuration file once `writes` have happened. */
  function ConfigAfter(file: ConfigFile, writes: seq<ConfigWrite>): ConfigFile
    decreases |writes|
  {
    if writes == [] then file
    else
      var last := writes[|writes| - 1];
      if last.WroteConfig? then AsConfig(last.content) else ConfigAfter(file, writes[..|writes| - 1])
  }

  /** The backup files, keyed by their whole-second stamp, once `writes` have
      happened; a second backup within the same second overwrites the first. */
  function BackupsAfter(backups: map<int, Record>, writes: seq<ConfigWrite>): map<int, Record>
    decreases |writes|
  {
    if writes == [] then backups
    else
      var w := writes[0];
      var next := if w.WroteBackup? then backups[w.stamp := w.content] else backups;
      BackupsAfter(next, writes[1..])
  }

  lemma BackupsAfterOne(backups: map<int, Record>, stamp: int, content: Record)
    ensures BackupsAfter(backups, [WroteBackup(stamp, content)]) == backups[stamp := content]
  {
    assert [WroteBackup(stamp, content)][1..] == [];
  }

  lemma BackupsAfterTwo(backups: map<int, Record>, stamp: int, content: Record, saved: Record)
    ensures BackupsAfter(backups, [WroteBackup(stamp, content), WroteConfig(saved)]) == backups[stamp := content]
  {
    var b, c := WroteBackup(stamp, content), WroteConfig(saved);
    assert [b, c][1..] == [c] && [c][1..] == [];
    calc {
      BackupsAfter(backups, [b, c]);
      BackupsAfter(backups[stamp := content], [c]);
      BackupsAfter(backups[stamp := content], []);
    }
  }

  /** What the sequence leaves on disk. The configuration file changes only
      when the edit is saved, or when the save is cut short, which leaves it
      unreadable; whenever the backup is written in full it holds the document
      as loaded, so after a cut-short save the backup is the one intact copy. */
  lemma ModifierEffects(edit: Edit, params: Json, file: ConfigFile, now: int, backup: Io, save: Io,
                        backups: map<int, Record>)
    ensures
      var r := ConfigModifier(edit, params, file, now, backup, save);
      var edited := file.Loaded? && backup.Succeeds? && ApplyEdit(edit, file.doc, params).Ok?;
      && (r.outcome.Ok? ==>
            && ConfigAfter(file, r.writes) == Loaded(ApplyEdit(edit, file.doc, params).value.doc)
            && BackupsAfter(backups, r.writes) == backups[now := Doc(file.doc)])
      && (r.outcome.Err? && !(edited && save.Truncated?) ==> ConfigAfter(file, r.writes) == file)
      && (edited && save.Truncated? ==>
            && r.outcome.Err?
            && ConfigAfter(file, r.writes) == Unparsable(save.loadError)
            && BackupsAfter(backups, r.writes) == backups[now := Doc(file.doc)])
      && (file.Loaded? && backup.Succeeds? ==> BackupsAfter(backups, r.writes) == backups[now := Doc(file.doc)])
      && (file.Loaded? && backup.Truncated? ==> BackupsAfter(backups, r.writes) == backups[now := Unreadable(backup.loadError)])
      && (!file.Loaded? || backup.FailsWith? ==> BackupsAfter(backups, r.writes) == backups)
  {
    var r := ConfigModifier(edit, params, file, now, backup, save);
    if file.Loaded? {
      match backup
      case FailsWith(_) =>
      case Truncated(_, loadError) =>
        BackupsAfterOne(backups, now, Unreadable(loadError));
      case Succeeds =>
        match ApplyEdit(edit, file.doc, params)
        case Err(_) =>
          BackupsAfterOne(backups, now, Doc(file.doc));
          assert ConfigAfter(file, r.writes) == ConfigAfter(file, []);
        case Ok(m) =>
          match save
          case FailsWith(_) =>
            BackupsAfterOne(backups, now, Doc(file.doc));
            assert ConfigAfter(file, r.writes) == ConfigAfter(file, []);
          case Truncated(_, loadError) =>
            BackupsAfterTwo(backups, now, Doc(file.doc), Unreadable(loadError));
          case Succeeds =>
            BackupsAfterTwo(backups, now, Doc(file.doc), Doc(m.doc));
    }
  }

  /** After a save that was cut short, the next edit raises before it writes
      anything: the configuration no longer loads. */
  lemma TruncatedSaveBlocksEdits(edit: Edit, params: Json, file: ConfigFile, now: int, backup: Io, save: Io,
                                 edit2: Edit, params2: Json, now2: int, backup2: Io, save2: Io)
    requires file.Loaded? && backup.Succeeds? && ApplyEdit(edit, file.doc, params).Ok? && save.Truncated?
    ensures
      var r := ConfigModifier(edit, params, file, now, backup, save);
      var after := ConfigAfter(file, r.writes);
      ConfigModifier(edit2, params2, after, now2, backup2, save2) == ModifyRun([], Err(PyException(ReadFailure, save.loadError)))
  {
    ModifierEffects(edit, params, file, now, backup, save, map[]);
  }
}

=== FILE: bridge_queue.dfy ===
/** The bridge's file queue: `execute_action`'s routing on the action tag,
    `process_action_file`'s per-record state machine, and the start-up sweep
    that processes each pending record once. The three queue directories are
    maps from file name to file content; the configuration file, the backups
    and every filesystem or process outcome are explicit. */
module BridgeQueue {
  import opened Base
  import opened JsonValue
  import opened Exceptions
  import opened BridgeConfig
  import opened BridgeRestart

  datatype Area = Completed | Failed

  /** The `pending`, `completed` and `failed` directories. */
  datatype Queue = Queue(pending: map<string, Record>, completed: map<string, Record>, failed: map<string, Record>)
  {
    function Terminal(area: Area): map<string, Record> {
      if area == Completed then completed else failed
    }

    /** No file name is present in two directories. */
    predicate Disjoint() {
      && pending.Keys !! completed.Keys
      && pending.Keys !! failed.Keys
      && completed.Keys !! failed.Keys
    }

    function Names(): set<string> {
      pending.Keys + completed.Keys + failed.Keys
    }
  }

  /** `q2` differs from `q1` at most in the entries named `name`. */
  predicate SameExcept(q1: Queue, q2: Queue, name: string) {
    && q2.pending - {name} == q1.pending - {name}
    && q2.completed - {name} == q1.completed - {name}
    && q2.failed - {name} == q1.failed - {name}
  }

  /** Every entry of a terminal directory of `q1` is still there, unchanged, in `q2`. */
  predicate TerminalKept(q1: Queue, q2: Queue) {
    && (forall n :: n in q1.completed ==> n in q2.completed && q2.completed[n] == q1.completed[n])
    && (forall n :: n in q1.failed ==> n in q2.failed && q2.failed[n] == q1.failed[n])
  }

  /** Everything the bridge reads and writes on disk. */
  datatype Disk = Disk(queue: Queue, config: ConfigFile, backups: map<int, Record>)

  /** How `Path.rename` ends; on Windows it raises when the destination exists. */
  datatype Rename = Renamed | RenameFails(detail: string)

  /** What the environment does while one record is processed: the text of the
      FileNotFoundError raised when the pending file is gone before it is read,
      the whole-second clock, the outcome of each file write and of the rename,
      and the host's process table. */
  datatype Oracle = Oracle(vanished: string, now: int, backup: Io, save: Io, host: Host, recordWrite: Io, rename: Rename)

  // ---------------------------------------------------------------------------
  // Routing

  datatype Tag = AddServerTag | RemoveServerTag | RestartTag

  function TagName(t: Tag): string {
    match t
    case AddServerTag => "add_mcp_server"
    case RemoveServerTag => "remove_mcp_server"
    case RestartTag => "restart_claude"
  }

  /** The handler a tag value selects; only the three exact strings dispatch. */
  function Route(tag: Json): (r: Option<Tag>)
    ensures forall t: Tag :: r == Some(t) <==> tag == Str(TagName(t))
  {
    if tag == Str("add_mcp_server") then Some(AddServerTag)
    else if tag == Str("remove_mcp_server") then Some(RemoveServerTag)
    else if tag == Str("restart_claude") then Some(RestartTag)
    else None
  }

  /** `action.get('action', 'unknown')` and `action.get('params', {})`. */
  function ActionTag(fields: map<string, Json>): Json { GetOr(fields, "action", Str("unknown")) }
  function ActionParams(fields: map<string, Json>): Json { GetOr(fields, "params", Obj(map[])) }

  function UnknownActionError(tag: Json): PyException {
    PyException(ValueError, "Unknown action type: " + Display(tag))
  }

  /** The effects and the outcome of one `execute_action` call. */
  datatype ExecRun = ExecRun(writes: seq<ConfigWrite>, signals: seq<Signal>, outcome: Result<string, PyException>)

  /** `execute_action`: the two configuration actions go through the load/backup/
      edit/save sequence, the restart action through the restart trace; any
      other tag, a missing one included, raises ValueError without side effects. */
  function ExecuteAction(action: Json, config: ConfigFile, o: Oracle): (r: ExecRun)
    ensures !action.Obj? ==> r == ExecRun([], [], Err(NoAttribute(action, "get")))
    ensures action.Obj? && Route(ActionTag(action.fields)).None? ==>
              r == ExecRun([], [], Err(UnknownActionError(ActionTag(action.fields))))
    ensures action.Obj? && "action" !in action.fields ==>
              r == ExecRun([], [], Err(UnknownActionError(Str("unknown"))))
    ensures r.writes != [] ==> action.Obj? && Route(ActionTag(action.fields)) in {Some(AddServerTag), Some(RemoveServerTag)}
    ensures r.signals != [] ==> action.Obj? && Route(ActionTag(action.fields)) == Some(RestartTag)
    ensures action.Obj? && Route(ActionTag(action.fields)) == Some(AddServerTag) ==>
              ModifyRun(r.writes, r.outcome) == ConfigModifier(AddEdit, ActionParams(action.fields), config, o.now, o.backup, o.save)
    ensures action.Obj? && Route(ActionTag(action.fields)) == Some(RemoveServerTag) ==>
              ModifyRun(r.writes, r.outcome) == ConfigModifier(RemoveEdit, ActionParams(action.fields), config, o.now, o.backup, o.save)
    ensures action.Obj? && Route(ActionTag(action.fields)) == Some(RestartTag) ==>
              RestartRun(r.signals, r.outcome) == Restart(o.host)
  {
    if !action.Obj? then ExecRun([], [], Err(NoAttribute(action, "get")))
    else
      var tag := ActionTag(action.fields);
      var params := ActionParams(action.fields);
      match Route(tag)
      case None => ExecRun([], [], Err(UnknownActionError(tag)))
      case Some(AddServerTag) =>
        var m := ConfigModifier(AddEdit, params, config, o.now, o.backup, o.save);
        ExecRun(m.writes, [], m.outcome)
      case Some(RemoveServerTag) =>
        var m := ConfigModifier(RemoveEdit, params, config, o.now, o.backup, o.save);
        ExecRun(m.writes, [], m.outcome)
      case Some(RestartTag) =>
        var rr := Restart(o.host);
        ExecRun([], rr.trace, rr.outcome)
  }

  // ---------------------------------------------------------------------------
  // Processing one record

  /** Index of the last '.' in `s`, or -1. */
  function LastDot(s: string): (r: int)
    ensures -1 <= r < |s|
    ensures r >= 0 ==> s[r] == '.'
    ensures forall i :: r < i < |s| ==> s[i] != '.'
    decreases |s|
  {
    if s == [] then -1
    else if s[|s| - 1] == '.' then |s| - 1
    else LastDot(s[..|s| - 1])
  }

  /** `Path(name).stem`: the name without its last suffix; a leading or trailing
      dot does not start a suffix. */
  function Stem(name: string): string {
    var i := LastDot(name);
    if 0 < i < |name| - 1 then name[..i] else name
  }

  /** A client file name `<id>.json` has stem `id` whenever `id` is non-empty. */
  lemma StemOfRecordName(id: string)
    requires id != []
    ensures Stem(id + ".json") == id
  {
    var name := id + ".json";
    assert name[|id|] == '.';
    assert forall i :: |id| < i < |name| ==> name[i] != '.';
  }

  function CompletedRecord(fields: map<string, Json>, message: string): map<string, Json> {
    fields["status" := Str("completed")]["result" := Str(message)]
  }

  function FailedRecord(fields: map<string, Json>, e: PyException): map<string, Json> {
    fields["status" := Str("failed")]["error" := Str(e.text)]
  }

  /** `open(file_path)` followed by `json.load`. */
  function Load(q: Queue, name: string, vanished: string): Result<Json, PyException> {
    if name !in q.pending then Err(PyException(FileNotFound, vanished))
    else match q.pending[name]
      case Unreadable(detail) => Err(PyException(ReadFailure, detail))
      case Doc(j) => Ok(j)
  }

  /** What happened to one record. `Stranded` is a record that stayed in the
      pending directory because opening it for the write-back (`written`
      false) or the rename failed; `Damaged` is a record whose write-back was
      cut short, leaving an unreadable pending file; `Escaped` is an exception
      the handler did not catch. */
  datatype FileOutcome =
    | Moved(area: Area, record: map<string, Json>)
    | Stranded(area: Area, record: map<string, Json>, written: bool)
    | Damaged(area: Area, record: map<string, Json>)
    | Escaped(error: PyException)

  datatype Step = Step(disk: Disk, signals: seq<Signal>, outcome: FileOutcome)

  /** Moves the pending entry `name` to `area`. */
  function Move(q: Queue, name: string, area: Area): (r: Queue)
    requires name in q.pending && name !in q.Terminal(area)
    ensures SameExcept(q, r, name) && TerminalKept(q, r) && r.Names() == q.Names()
    ensures name !in r.pending && name in r.Terminal(area) && r.Terminal(area)[name] == q.pending[name]
    ensures q.Disjoint() && name !in q.completed && name !in q.failed ==> r.Disjoint()
  {
    var entry := q.pending[name];
    if area == Completed then Queue(q.pending - {name}, q.completed[name := entry], q.failed)
    else Queue(q.pending - {name}, q.completed, q.failed[name := entry])
  }

  /** Lines 103-111: write the record back to its pending path, then rename it
      into `area` under the same name. On Windows the rename fails when the
      destination already exists. A failure of either is logged and the record
      stays in the pending directory. */
  function Finish(d: Disk, name: string, area: Area, record: map<string, Json>, o: Oracle): (r: (Disk, FileOutcome))
    ensures r.0.config == d.config && r.0.backups == d.backups
    ensures !r.1.Escaped? && r.1.area == area && r.1.record == record
    ensures SameExcept(d.queue, r.0.queue, name)
    ensures TerminalKept(d.queue, r.0.queue)
    ensures d.queue.Disjoint() && name !in d.queue.completed && name !in d.queue.failed ==> r.0.queue.Disjoint()
    ensures name in d.queue.pending ==> r.0.queue.Names() == d.queue.Names()
    ensures o.recordWrite.FailsWith? ==> r == (d, Stranded(area, record, false))
    ensures o.recordWrite.Truncated? ==>
              && r.1 == Damaged(area, record)
              && r.0.queue == d.queue.(pending := d.queue.pending[name := Unreadable(o.recordWrite.loadError)])
    ensures o.recordWrite.Succeeds? && (o.rename.RenameFails? || name in d.queue.Terminal(area)) ==>
              && r.1 == Stranded(area, record, true)
              && r.0.queue == d.queue.(pending := d.queue.pending[name := Doc(Obj(record))])
    ensures o.recordWrite.Succeeds? && o.rename.Renamed? && name !in d.queue.Terminal(area) ==> r.1 == Moved(area, record)
    ensures r.1.Moved? ==>
              && name !in r.0.queue.pending
              && name in r.0.queue.Terminal(area)
              && r.0.queue.Terminal(area)[name] == Doc(Obj(record))
  {
    match Written(Obj(record), o.recordWrite)
    case None => (d, Stranded(area, record, false))
    case Some(content) =>
      var q := WriteBack(d.queue, name, content);
      if !o.recordWrite.Succeeds? then (d.(queue := q), Damaged(area, record))
      else if o.rename.RenameFails? || name in d.queue.Terminal(area) then (d.(queue := q), Stranded(area, record, true))
      else (d.(queue := Move(q, name, area)), Moved(area, record))
  }

  /** Overwrites (or creates) the pending entry `name`. */
  function WriteBack(q: Queue, name: string, entry: Record): (r: Queue)
    ensures r.pending == q.pending[name := entry] && r.completed == q.completed && r.failed == q.failed
    ensures SameExcept(q, r, name) && TerminalKept(q, r)
    ensures q.Disjoint() && name !in q.completed && name !in q.failed ==> r.Disjoint()
    ensures name in q.pending ==> r.Names() == q.Names()
  {
    q.(pending := q.pending[name := entry])
  }

  /** `process_action_file`: load, execute, stamp, write back, rename. */
  function ProcessActionFile(d: Disk, name: string, o: Oracle): (s: Step)
    ensures SameExcept(d.queue, s.disk.queue, name)
    ensures TerminalKept(d.queue, s.disk.queue)
    ensures d.queue.Disjoint() && name !in d.queue.completed && name !in d.queue.failed ==> s.disk.queue.Disjoint()
    ensures name in d.queue.pending ==> s.disk.queue.Names() == d.queue.Names()
    ensures s.outcome.Moved? ==>
              && name !in s.disk.queue.pending
              && name in s.disk.queue.Terminal(s.outcome.area)
              && s.disk.queue.Terminal(s.outcome.area)[name] == Doc(Obj(s.outcome.record))
    ensures s.outcome.Stranded? && s.outcome.written ==> s.disk.queue.pending == d.queue.pending[name := Doc(Obj(s.outcome.record))]
    ensures s.outcome.Stranded? && !s.outcome.written ==> s.disk.queue == d.queue
    ensures s.outcome.Damaged? ==> o.recordWrite.Truncated? && s.disk.queue.pending == d.queue.pending[name := Unreadable(o.recordWrite.loadError)]
    ensures s.outcome.Escaped? ==> s.disk == d && s.signals == []
  {
    match Load(d.queue, name, o.vanished)
    case Err(e) =>
      var fin := Finish(d, name, Failed, FailedRecord(map["id" := Str(Stem(name))], e), o);
      Step(fin.0, [], fin.1)
    case Ok(action) =>
      if !action.Obj? then Step(d, [], Escaped(NoItemAssignment(action)))
      else
        var run := ExecuteAction(action, d.config, o);
        var d1 := d.(config := ConfigAfter(d.config, run.writes), backups := BackupsAfter(d.backups, run.writes));
        var fin := match run.outcome
          case Ok(message) => Finish(d1, name, Completed, CompletedRecord(action.fields, message), o)
          case Err(e) => Finish(d1, name, Failed, FailedRecord(action.fields, e), o);
        Step(fin.0, run.signals, fin.1)
  }

  /** What the record says: a handled record is marked completed with the
      handler's result or failed with the exception text, every other field kept;
      an unreadable one becomes `{"id": stem}` plus the failure fields; a
      document that is not an object escapes the handler. */
  lemma RecordContents(d: Disk, name: string, o: Oracle)
    ensures
      var s := ProcessActionFile(d, name, o);
      match Load(d.queue, name, o.vanished)
      case Err(e) =>
        && !s.outcome.Escaped? && s.outcome.area == Failed
        && s.outcome.record == map["id" := Str(Stem(name)), "status" := Str("failed"), "error" := Str(e.text)]
      case Ok(action) =>
        && (s.outcome.Escaped? <==> !action.Obj?)
        && (action.Obj? ==>
              var run := ExecuteAction(action, d.config, o);
              var rec := s.outcome.record;
              && (s.outcome.area == Completed <==> run.outcome.Ok?)
              && (run.outcome.Ok? ==>
                    rec.Keys == action.fields.Keys + {"status", "result"}
                    && rec["status"] == Str("completed") && rec["result"] == Str(run.outcome.value))
              && (run.outcome.Err? ==>
                    rec.Keys == action.fields.Keys + {"status", "error"}
                    && rec["status"] == Str("failed") && rec["error"] == Str(run.outcome.error.text))
              && (forall k :: k in action.fields && k !in {"status", "result", "error"} ==> rec[k] == action.fields[k]))
  {
    match Load(d.queue, name, o.vanished)
    case Err(e) =>
      assert FailedRecord(map["id" := Str(Stem(name))], e)
               == map["id" := Str(Stem(name)), "status" := Str("failed"), "error" := Str(e.text)];
    case Ok(action) =>
      if action.Obj? {
        var run := ExecuteAction(action, d.config, o);
        if run.outcome.Ok? {
          HandledRecordCompleted(d, name, o, action);
          StampKeeps(action.fields, "completed", "result", run.outcome.value);
        } else {
          HandledRecordFailed(d, name, o, action);
          StampKeeps(action.fields, "failed", "error", run.outcome.error.text);
        }
      }
  }

  /** Stamping a record sets `status` and one outcome field and keeps every other field. */
  lemma StampKeeps(fields: map<string, Json>, status: string, key: string, text: string)
    requires key != "status"
    ensures var rec := fields["status" := Str(status)][key := Str(text)];
            && rec.Keys == fields.Keys + {"status", key}
            && rec["status"] == Str(status) && rec[key] == Str(text)
            && forall k :: k in fields && k != "status" && k != key ==> rec[k] == fields[k]
  {
  }

  lemma HandledRecordCompleted(d: Disk, name: string, o: Oracle, action: Json)
    requires Load(d.queue, name, o.vanished) == Ok(action) && action.Obj?
    requires ExecuteAction(action, d.config, o).outcome.Ok?
    ensures
      var s := ProcessActionFile(d, name, o);
      var message := ExecuteAction(action, d.config, o).outcome.value;
      && !s.outcome.Escaped?
      && s.outcome.area == Completed
      && s.outcome.record == CompletedRecord(action.fields, message)
  {
  }

  lemma HandledRecordFailed(d: Disk, name: string, o: Oracle, action: Json)
    requires Load(d.queue, name, o.vanished) == Ok(action) && action.Obj?
    requires ExecuteAction(action, d.config, o).outcome.Err?
    ensures
      var s := ProcessActionFile(d, name, o);
      var e := ExecuteAction(action, d.config, o).outcome.error;
      && !s.outcome.Escaped?
      && s.outcome.area == Failed
      && s.outcome.record == FailedRecord(action.fields, e)
  {
  }

  /** A readable object record whose write-back and rename succeed, with no
      same-named terminal file, is moved out of pending. */
  lemma ObjectRecordMoves(d: Disk, name: string, o: Oracle)
    requires name in d.queue.pending && name !in d.queue.completed && name !in d.queue.failed
    requires d.queue.pending[name].Doc? && d.queue.pending[name].json.Obj?
    requires o.recordWrite.Succeeds? && o.rename.Renamed?
    ensures ProcessActionFile(d, name, o).outcome.Moved?
  {
  }

  /** The write-back and the rename decide the fate of every record that does
      not escape: an `open` that raises strands it untouched, a dump cut short
      damages it, and a write that lands leaves it moved unless the rename fails
      or the destination already exists. */
  lemma WriteBackDecides(d: Disk, name: string, o: Oracle)
    ensures
      var s := ProcessActionFile(d, name, o);
      !s.outcome.Escaped? ==>
        && (s.outcome.Stranded? && !s.outcome.written <==> o.recordWrite.FailsWith?)
        && (s.outcome.Damaged? <==> o.recordWrite.Truncated?)
        && (s.outcome.Stranded? && s.outcome.written <==>
              o.recordWrite.Succeeds? && (o.rename.RenameFails? || name in d.queue.Terminal(s.outcome.area)))
        && (s.outcome.Moved? <==>
              o.recordWrite.Succeeds? && o.rename.Renamed? && name !in d.queue.Terminal(s.outcome.area))
  {
    match Load(d.queue, name, o.vanished)
    case Err(e) =>
    case Ok(action) =>
      if action.Obj? {
        var run := ExecuteAction(action, d.config, o);
        var d1 := d.(config := ConfigAfter(d.config, run.writes), backups := BackupsAfter(d.backups, run.writes));
        assert d1.queue == d.queue;
      }
  }

  /** A record that does not escape and whose write-back is cut short stays
      pending as a file `json.load` rejects, so the next time it is processed
      it is failed as `{"id": stem}` with the load error. */
  lemma DamagedRecordFailsNextTime(d: Disk, name: string, o: Oracle, o2: Oracle)
    requires o.recordWrite.Truncated?
    requires !ProcessActionFile(d, name, o).outcome.Escaped?
    ensures
      var s2 := ProcessActionFile(ProcessActionFile(d, name, o).disk, name, o2);
      && !s2.outcome.Escaped? && s2.outcome.area == Failed
      && s2.outcome.record == map["id" := Str(Stem(name)), "status" := Str("failed"), "error" := Str(o.recordWrite.loadError)]
  {
    var s := ProcessActionFile(d, name, o);
    WriteBackDecides(d, name, o);
    assert s.outcome.Damaged?;
    assert s.disk.queue.pending[name] == Unreadable(o.recordWrite.loadError);
    assert Load(s.disk.queue, name, o2.vanished) == Err(PyException(ReadFailure, o.recordWrite.loadError));
    RecordContents(s.disk, name, o2);
  }

  // ---------------------------------------------------------------------------
  // The start-up sweep

  /** `PENDING_DIR.glob('*.json')`; Windows compares the pattern without case. */
  predicate IsJsonName(name: string) {
    EndsWith(Lower(name), ".json")
  }

  /** The queue facts one `process_action_file` call guarantees (see its contract). */
  predicate StepFacts(q1: Queue, q2: Queue, name: string, out: FileOutcome) {
    && SameExcept(q1, q2, name)
    && TerminalKept(q1, q2)
    && (q1.Disjoint() && name !in q1.completed && name !in q1.failed ==> q2.Disjoint())
    && (name in q1.pending ==> q2.Names() == q1.Names())
    && (out.Moved? ==> name !in q2.pending && name in q2.Terminal(out.area))
    && (out.Escaped? ==> q2 == q1)
  }

  /** What holds after the sweep has handled `listing[..|outcomes|]`. */
  predicate Swept(q0: Queue, q: Queue, listing: seq<string>, outcomes: seq<Option<FileOutcome>>) {
    && |outcomes| <= |listing|
    && q.Disjoint()
    && q.Names() == q0.Names()
    && TerminalKept(q0, q)
    && (forall j :: 0 <= j < |outcomes| ==> (outcomes[j].Some? <==> IsJsonName(listing[j])))
    && (forall j :: 0 <= j < |outcomes| && outcomes[j].Some? && outcomes[j].value.Moved? ==>
          listing[j] !in q.pending && listing[j] in q.Terminal(outcomes[j].value.area))
    && (forall j :: 0 <= j < |outcomes| && outcomes[j].None? ==>
          listing[j] in q.pending && listing[j] in q0.pending && q.pending[listing[j]] == q0.pending[listing[j]])
    && (forall j :: |outcomes| <= j < |listing| ==>
          listing[j] in q.pending && listing[j] in q0.pending && q.pending[listing[j]] == q0.pending[listing[j]])
  }

  /** Handling the next listed name keeps `Swept`, because a step touches only its own name. */
  lemma SweptAdvance(q0: Queue, q: Queue, q2: Queue, listing: seq<string>, outcomes: seq<Option<FileOutcome>>,
                     next: Option<FileOutcome>)
    requires Swept(q0, q, listing, outcomes)
    requires |outcomes| < |listing|
    requires forall i, j :: 0 <= i < j < |listing| ==> listing[i] != listing[j]
    requires next.Some? <==> IsJsonName(listing[|outcomes|])
    requires next.None? ==> q2 == q
    requires next.Some? ==> StepFacts(q, q2, listing[|outcomes|], next.value)
    ensures Swept(q0, q2, listing, outcomes + [next])
  {
    var name := listing[|outcomes|];
    var outs := outcomes + [next];
    assert name in q.pending;
    forall j | 0 <= j < |outs| && outs[j].Some? && outs[j].value.Moved?
      ensures listing[j] !in q2.pending && listing[j] in q2.Terminal(outs[j].value.area)
    {
      if j < |outcomes| {
        assert listing[j] != name;
        assert listing[j] !in q2.pending - {name};
        assert listing[j] in q2.Terminal(outs[j].value.area) by {
          assert TerminalKept(q, q2);
        }
      }
    }
    forall j | |outs| <= j < |listing|
      ensures listing[j] in q2.pending && q2.pending[listing[j]] == q0.pending[listing[j]]
    {
      assert listing[j] != name;
      assert listing[j] in q.pending - {name};
      assert (q2.pending - {name})[listing[j]] == (q.pending - {name})[listing[j]];
    }
    forall j | 0 <= j < |outcomes| && outs[j].None?
      ensures listing[j] in q2.pending && q2.pending[listing[j]] == q0.pending[listing[j]]
    {
      assert listing[j] != name;
      assert listing[j] in q.pending - {name};
      assert (q2.pending - {name})[listing[j]] == (q.pending - {name})[listing[j]];
    }
  }

  /** The sweep has stopped: the last record it handled escaped. */
  predicate Stopped(outcomes: seq<Option<FileOutcome>>) {
    outcomes != [] && outcomes[|outcomes| - 1].Some? && outcomes[|outcomes| - 1].value.Escaped?
  }

  /** The sweep's next step from `cur`: `process_action_file` on the next listed
      name when it matches `*.json`, nothing otherwise. */
  function SweepNext(cur: (Disk, seq<Option<FileOutcome>>), listing: seq<string>, oracles: seq<Oracle>): (r: (Disk, seq<Option<FileOutcome>>))
    requires |oracles| == |listing| && |cur.1| < |listing|
    ensures |r.1| == |cur.1| + 1 && r.1[..|cur.1|] == cur.1
    ensures r.1[|cur.1|].Some? <==> IsJsonName(listing[|cur.1|])
  {
    var name := listing[|cur.1|];
    if !IsJsonName(name) then (cur.0, cur.1 + [None])
    else
      var s := ProcessActionFile(cur.0, name, oracles[|cur.1|]);
      (s.disk, cur.1 + [Some(s.outcome)])
  }

  /** One step of the sweep keeps `Swept`. */
  lemma SweptStep(q0: Queue, cur: (Disk, seq<Option<FileOutcome>>), listing: seq<string>, oracles: seq<Oracle>)
    requires |oracles| == |listing| && |cur.1| < |listing|
    requires Swept(q0, cur.0.queue, listing, cur.1)
    requires forall i, j :: 0 <= i < j < |listing| ==> listing[i] != listing[j]
    ensures Swept(q0, SweepNext(cur, listing, oracles).0.queue, listing, SweepNext(cur, listing, oracles).1)
  {
    var name := listing[|cur.1|];
    if IsJsonName(name) {
      var s := ProcessActionFile(cur.0, name, oracles[|cur.1|]);
      assert StepFacts(cur.0.queue, s.disk.queue, name, s.outcome);
      SweptAdvance(q0, cur.0.queue, s.disk.queue, listing, cur.1, Some(s.outcome));
    } else {
      SweptAdvance(q0, cur.0.queue, cur.0.queue, listing, cur.1, None);
    }
  }

  /** The sweep over the first `k` listed names: each `*.json` name is processed
      with its own oracle, every other name is skipped, and nothing after an
      escaped exception is looked at. */
  function SweepTo(d: Disk, listing: seq<string>, oracles: seq<Oracle>, k: nat): (r: (Disk, seq<Option<FileOutcome>>))
    requires |oracles| == |listing| && k <= |listing|
    ensures |r.1| <= k
    ensures |r.1| < k ==> Stopped(r.1)
    ensures forall j :: 0 <= j < |r.1| - 1 ==> !(r.1[j].Some? && r.1[j].value.Escaped?)
    ensures forall j :: 0 <= j < |r.1| ==> (r.1[j].Some? <==> IsJsonName(listing[j]))
    decreases k
  {
    if k == 0 then (d, [])
    else
      var prev := SweepTo(d, listing, oracles, k - 1);
      if Stopped(prev.1) then prev else SweepNext(prev, listing, oracles)
  }

  /** The whole sweep of `listing`. */
  function Sweep(d: Disk, listing: seq<string>, oracles: seq<Oracle>): (r: (Disk, seq<Option<FileOutcome>>))
    requires |oracles| == |listing|
  {
    SweepTo(d, listing, oracles, |listing|)
  }

  /** Once the sweep has stopped, looking at more names changes nothing. */
  lemma {:induction false} SweepStops(d: Disk, listing: seq<string>, oracles: seq<Oracle>, k: nat, m: nat)
    requires |oracles| == |listing| && k <= m <= |listing|
    requires Stopped(SweepTo(d, listing, oracles, k).1)
    ensures SweepTo(d, listing, oracles, m) == SweepTo(d, listing, oracles, k)
    decreases m
  {
    if m > k {
      SweepStops(d, listing, oracles, k, m - 1);
    }
  }

  /** Every prefix of the sweep leaves the queue as `Swept` describes. */
  lemma {:induction false} SweepSwept(d: Disk, listing: seq<string>, oracles: seq<Oracle>, k: nat)
    requires |oracles| == |listing| && k <= |listing|
    requires d.queue.Disjoint()
    requires forall i, j :: 0 <= i < j < |listing| ==> listing[i] != listing[j]
    requires forall n :: n in listing ==> n in d.queue.pending
    ensures Swept(d.queue, SweepTo(d, listing, oracles, k).0.queue, listing, SweepTo(d, listing, oracles, k).1)
    decreases k
  {
    if k > 0 {
      var prev := SweepTo(d, listing, oracles, k - 1);
      SweepSwept(d, listing, oracles, k - 1);
      if !Stopped(prev.1) {
        SweptStep(d.queue, prev, listing, oracles);
      }
    }
  }

  /** What the whole sweep leaves behind: names and terminal files are kept, a
      moved record is out of pending, and every name the sweep skipped or never
      reached is pending unchanged. */
  lemma SweepFacts(d: Disk, listing: seq<string>, oracles: seq<Oracle>)
    requires |oracles| == |listing|
    requires d.queue.Disjoint()
    requires forall i, j :: 0 <= i < j < |listing| ==> listing[i] != listing[j]
    requires forall n :: n in listing ==> n in d.queue.pending
    ensures
      var (d', outcomes) := Sweep(d, listing, oracles);
      && d'.queue.Disjoint()
      && d'.queue.Names() == d.queue.Names()
      && TerminalKept(d.queue, d'.queue)
      && (forall i :: 0 <= i < |outcomes| && outcomes[i].Some? && outcomes[i].value.Moved? ==>
            listing[i] !in d'.queue.pending && listing[i] in d'.queue.Terminal(outcomes[i].value.area))
      && (forall i :: 0 <= i < |outcomes| && outcomes[i].None? ==>
            listing[i] in d'.queue.pending && d'.queue.pending[listing[i]] == d.queue.pending[listing[i]])
      && (forall i :: |outcomes| <= i < |listing| ==>
            listing[i] in d'.queue.pending && d'.queue.pending[listing[i]] == d.queue.pending[listing[i]])
  {
    SweepSwept(d, listing, oracles, |listing|);
  }

  /** One iteration of the sweep loop: `process_action_file` on the next listed
      name when it matches `*.json`, nothing otherwise. */
  method SweepOne(d: Disk, listing: seq<string>, oracles: seq<Oracle>, cur: Disk, outcomes: seq<Option<FileOutcome>>)
    returns (next: Disk, outcomes': seq<Option<FileOutcome>>)
    requires |oracles| == |listing| && |outcomes| < |listing|
    requires (cur, outcomes) == SweepTo(d, listing, oracles, |outcomes|) && !Stopped(outcomes)
    ensures |outcomes'| == |outcomes| + 1
    ensures (next, outcomes') == SweepTo(d, listing, oracles, |outcomes| + 1)
  {
    var name := listing[|outcomes|];
    if !IsJsonName(name) {
      next, outcomes' := cur, outcomes + [None];
    } else {
      var s := ProcessActionFile(cur, name, oracles[|outcomes|]);
      next, outcomes' := s.disk, outcomes + [Some(s.outcome)];
    }
  }

  /** The sweep in `start`: each pending `*.json` file, in the order the
      directory lists them, is processed once. An exception escaping a record
      ends the sweep (it propagates out of `start`). `listing` is that directory
      order; `oracles[i]` is what the environment does while `listing[i]` is
      processed. */
  method InitialSweep(d: Disk, listing: seq<string>, oracles: seq<Oracle>) returns (d': Disk, outcomes: seq<Option<FileOutcome>>)
    requires |oracles| == |listing|
    requires forall i, j :: 0 <= i < j < |listing| ==> listing[i] != listing[j]
    ensures (d', outcomes) == Sweep(d, listing, oracles)
  {
    d' := d;
    outcomes := [];
    while |outcomes| < |listing| && !Stopped(outcomes)
      invariant |outcomes| <= |listing|
      invariant (d', outcomes) == SweepTo(d, listing, oracles, |outcomes|)
      decreases |listing| - |outcomes|
    {
      d', outcomes := SweepOne(d, listing, oracles, d', outcomes);
    }
    if |outcomes| < |listing| {
      SweepStops(d, listing, oracles, |outcomes|, |listing|);
    }
  }
}

=== FILE: bridge_restart.dfy ===
/** `_restart_claude` as a trace over an abstract process table: which
    processes are terminated, which are killed after the five-second grace
    period, and the single launch of a new instance. The process table, the
    `samefile` comparison, the grace-period outcome and the success of each
    signal are supplied as observations. */
module BridgeRestart {
  import opened Base
  import opened Exceptions

  const ExeName: string := "Claude.exe"
  const RestartMessage: string := "Claude Desktop restart sequence initiated."

  /** The answer of one query of the scan. `Raises` stands for NoSuchProcess,
      AccessDenied or FileNotFoundError, which make the scan skip the process;
      `Escapes` is any other exception (a PermissionError from `samefile`, say),
      which leaves the scan and the whole restart. */
  datatype Probe<T> = Answer(value: T) | Raises | Escapes(error: PyException)

  /** One entry of `psutil.process_iter`: its name, its executable path, and
      whether that path is the same file as the configured `Claude.exe`. */
  datatype Proc = Proc(pid: int, name: Probe<string>, exe: Probe<string>, sameFile: Probe<bool>)

  /** What the host reports during one restart. */
  datatype Host = Host(
    procs: seq<Proc>,
    survivors: set<int>,     // pids still alive when the grace period ends
    termFails: set<int>,     // pids whose `terminate` raises
    killFails: set<int>,     // pids whose `kill` raises, e.g. one that exited after the grace period
    signalError: string,     // `str(e)` of the first signal that raises
    launchOk: bool,
    launchError: string)     // `str(e)` of a `Popen` that raises

  datatype Signal = Terminate(pid: int) | Kill(pid: int) | Launch

  datatype RestartRun = RestartRun(trace: seq<Signal>, outcome: Result<string, PyException>)

  /** The test at claude-desktop-bridge.py line 178, each query short-circuiting. */
  predicate Matches(p: Proc) {
    && p.name == Answer(ExeName)
    && p.exe.Answer? && p.exe.value != []
    && p.sameFile == Answer(true)
  }

  /** The exception the test at line 178 lets escape for `p`, if any: the
      queries run left to right and stop at the first false conjunct. */
  function Escaping(p: Proc): Option<PyException> {
    if p.name.Escapes? then Some(p.name.error)
    else if p.name != Answer(ExeName) then None
    else if p.exe.Escapes? then Some(p.exe.error)
    else if !(p.exe.Answer? && p.exe.value != []) then None
    else if p.sameFile.Escapes? then Some(p.sameFile.error)
    else None
  }

  /** The exception that ends the scan: the first one that escapes, in table order. */
  function ScanError(procs: seq<Proc>): (r: Option<PyException>)
    ensures r.None? <==> forall i :: 0 <= i < |procs| ==> Escaping(procs[i]).None?
    ensures r.Some? ==> exists i :: 0 <= i < |procs| && Escaping(procs[i]) == r
                                    && forall j :: 0 <= j < i ==> Escaping(procs[j]).None?
  {
    if procs == [] then None
    else if Escaping(procs[0]).Some? then Escaping(procs[0])
    else
      var rest := ScanError(procs[1..]);
      assert forall i :: 1 <= i < |procs| ==> procs[i] == procs[1..][i - 1];
      rest
  }

  /** The pids the scan collects, in table order. */
  function Found(procs: seq<Proc>): (r: seq<int>)
    ensures forall x :: x in r <==> exists i :: 0 <= i < |procs| && Matches(procs[i]) && procs[i].pid == x
  {
    if procs == [] then []
    else
      var rest := Found(procs[1..]);
      assert forall i :: 1 <= i < |procs| ==> procs[i] == procs[1..][i - 1];
      if Matches(procs[0]) then [procs[0].pid] + rest else rest
  }

  /** The pids of `pids` that are in `alive`, in order. */
  function Alive(pids: seq<int>, alive: set<int>): (r: seq<int>)
    ensures forall x :: x in r <==> x in pids && x in alive
  {
    if pids == [] then []
    else if pids[0] in alive then [pids[0]] + Alive(pids[1..], alive)
    else Alive(pids[1..], alive)
  }

  /** Sends `signal` to each pid in turn; the first one that raises stops the sequence. */
  function SignalEach(pids: seq<int>, kill: bool, fails: set<int>): (r: (seq<Signal>, bool))
    ensures r.1 <==> forall x :: x in pids ==> x !in fails
    ensures r.1 ==> |r.0| == |pids| && forall i :: 0 <= i < |pids| ==>
                      r.0[i] == (if kill then Kill(pids[i]) else Terminate(pids[i]))
    ensures forall s :: s in r.0 ==> (if kill then s.Kill? else s.Terminate?) && s.pid in pids
    ensures r.1 ==> forall x :: (if kill then Kill(x) else Terminate(x)) in r.0 <==> x in pids
  {
    if pids == [] then ([], true)
    else
      var s := if kill then Kill(pids[0]) else Terminate(pids[0]);
      if pids[0] in fails then ([s], false)
      else
        var rest := SignalEach(pids[1..], kill, fails);
        ([s] + rest.0, rest.1)
  }

  /** The restart sequence. */
  function Restart(h: Host): (r: RestartRun)
  {
    if ScanError(h.procs).Some? then RestartRun([], Err(ScanError(h.procs).value))
    else
      var found := Found(h.procs);
      var term := SignalEach(found, false, h.termFails);
      if !term.1 then RestartRun(term.0, Err(PyException(ProcessFailure, h.signalError)))
      else
        var kill := SignalEach(Alive(found, h.survivors), true, h.killFails);
        if !kill.1 then RestartRun(term.0 + kill.0, Err(PyException(ProcessFailure, h.signalError)))
        else if !h.launchOk then RestartRun(term.0 + kill.0 + [Launch], Err(PyException(ProcessFailure, h.launchError)))
        else RestartRun(term.0 + kill.0 + [Launch], Ok(RestartMessage))
  }

  /** Every signal the restart sends works: each match terminates, and each
      match still alive after the grace period can be killed. */
  predicate SignalsWork(h: Host) {
    forall x :: x in Found(h.procs) ==> x !in h.termFails && (x in h.survivors ==> x !in h.killFails)
  }

  /** An exception escaping the scan fails the action before any signal or launch. */
  lemma ScanEscapeFailsAction(h: Host)
    requires exists i :: 0 <= i < |h.procs| && Escaping(h.procs[i]).Some?
    ensures Restart(h).trace == []
    ensures Restart(h).outcome.Err? && Some(Restart(h).outcome.error) == ScanError(h.procs)
  {
  }

  /** Number of launches in a trace. */
  function Launches(t: seq<Signal>): nat {
    if t == [] then 0 else (if t[0].Launch? then 1 else 0) + Launches(t[1..])
  }

  lemma {:induction false} LaunchesAppend(a: seq<Signal>, b: seq<Signal>)
    ensures Launches(a + b) == Launches(a) + Launches(b)
  {
    if a == [] {
      assert a + b == b;
    } else {
      assert (a + b)[1..] == a[1..] + b;
      LaunchesAppend(a[1..], b);
    }
  }

  lemma {:induction false} NoLaunchInSignals(t: seq<Signal>)
    requires forall s :: s in t ==> !s.Launch?
    ensures Launches(t) == 0
  {
    if t != [] {
      assert forall s :: s in t[1..] ==> s in t;
      NoLaunchInSignals(t[1..]);
    }
  }

  /** The trace of a restart in which no signal fails: all terminations, then
      the kills, then the launch. */
  lemma RestartShape(h: Host)
    requires ScanError(h.procs).None? && SignalsWork(h)
    ensures
      var found := Found(h.procs);
      var term := SignalEach(found, false, h.termFails);
      var kill := SignalEach(Alive(found, h.survivors), true, h.killFails);
      && term.1 && kill.1
      && Restart(h).trace == term.0 + kill.0 + [Launch]
  {
  }

  /** The trace ends with exactly one launch, whether or not any process
      matched; the action succeeds exactly when that launch does. */
  lemma RestartLaunchesOnce(h: Host)
    requires ScanError(h.procs).None? && SignalsWork(h)
    ensures
      var r := Restart(h);
      && |r.trace| > 0 && r.trace[|r.trace| - 1] == Launch
      && Launches(r.trace) == 1
      && (Found(h.procs) == [] ==> r.trace == [Launch])
      && (r.outcome.Ok? <==> h.launchOk)
      && (!h.launchOk ==> r.outcome == Err(PyException(ProcessFailure, h.launchError)))
  {
    RestartShape(h);
    var found := Found(h.procs);
    var term := SignalEach(found, false, h.termFails);
    var kill := SignalEach(Alive(found, h.survivors), true, h.killFails);
    NoLaunchInSignals(term.0);
    NoLaunchInSignals(kill.0);
    LaunchesAppend(term.0, kill.0);
    LaunchesAppend(term.0 + kill.0, [Launch]);
    assert Launches([Launch]) == 1 by {
      assert [Launch][1..] == [];
    }
  }

  /** Only matching processes are signalled: each of them is terminated, and
      exactly those still alive after the grace period are killed. */
  lemma RestartSignalsMatching(h: Host)
    requires ScanError(h.procs).None? && SignalsWork(h)
    ensures forall x :: Terminate(x) in Restart(h).trace <==> x in Found(h.procs)
    ensures forall x :: Kill(x) in Restart(h).trace <==> x in Found(h.procs) && x in h.survivors
  {
    RestartShape(h);
    var found := Found(h.procs);
    var term := SignalEach(found, false, h.termFails);
    var kill := SignalEach(Alive(found, h.survivors), true, h.killFails);
    var t := Restart(h).trace;
    forall x ensures Terminate(x) in t <==> Terminate(x) in term.0 {
      assert Terminate(x) !in kill.0;
    }
    forall x ensures Kill(x) in t <==> Kill(x) in kill.0 {
      assert Kill(x) !in term.0;
    }
  }

  /** The matching processes are terminated first, in table order. */
  lemma RestartTerminatesFirst(h: Host)
    requires ScanError(h.procs).None? && SignalsWork(h)
    ensures
      var found := Found(h.procs);
      && |found| < |Restart(h).trace|
      && forall i :: 0 <= i < |found| ==> Restart(h).trace[i] == Terminate(found[i])
  {
    RestartShape(h);
    var found := Found(h.procs);
    var term := SignalEach(found, false, h.termFails);
    var kill := SignalEach(Alive(found, h.survivors), true, h.killFails);
    var t := Restart(h).trace;
    forall i | 0 <= i < |found| ensures t[i] == Terminate(found[i]) {
      assert t[i] == (term.0 + kill.0)[i] == term.0[i];
    }
  }

  /** When a termination fails the sequence stops before the launch. */
  lemma TerminateFailureSkipsLaunch(h: Host)
    requires exists p :: p in h.procs && Matches(p) && p.pid in h.termFails
    ensures Restart(h).outcome.Err?
    ensures Launches(Restart(h).trace) == 0
    ensures ScanError(h.procs).None? ==> Restart(h).outcome == Err(PyException(ProcessFailure, h.signalError))
  {
    if ScanError(h.procs).Some? {
      NoLaunchInSignals([]);
    } else {
      var p :| p in h.procs && Matches(p) && p.pid in h.termFails;
      var i :| 0 <= i < |h.procs| && h.procs[i] == p;
      var found := Found(h.procs);
      assert p.pid in found;
      var term := SignalEach(found, false, h.termFails);
      NoLaunchInSignals(term.0);
      if term.1 {
        assert false;
      }
    }
  }

  /** A survivor whose `kill` raises (it exited after the grace period, say)
      fails the action after every matching process was terminated, and no
      new instance is launched. */
  lemma KillFailureSkipsLaunch(h: Host)
    requires ScanError(h.procs).None?
    requires forall x :: x in Found(h.procs) ==> x !in h.termFails
    requires exists x :: x in Found(h.procs) && x in h.survivors && x in h.killFails
    ensures Restart(h).outcome == Err(PyException(ProcessFailure, h.signalError))
    ensures Launches(Restart(h).trace) == 0
    ensures forall x :: x in Found(h.procs) ==> Terminate(x) in Restart(h).trace
    ensures exists x :: Kill(x) in Restart(h).trace && x in h.killFails
  {
    var found := Found(h.procs);
    var alive := Alive(found, h.survivors);
    var term := SignalEach(found, false, h.termFails);
    var kill := SignalEach(alive, true, h.killFails);
    NoLaunchInSignals(term.0 + kill.0);
    KillStopsAtFailure(alive, h.killFails);
    assert Restart(h).trace == term.0 + kill.0;
  }

  /** A failing signal sequence ends with the signal that raised. */
  lemma {:induction false} KillStopsAtFailure(pids: seq<int>, fails: set<int>)
    requires exists x :: x in pids && x in fails
    ensures var r := SignalEach(pids, true, fails);
            r.0 != [] && r.0[|r.0| - 1].Kill? && r.0[|r.0| - 1].pid in fails
  {
    if pids[0] !in fails {
      var x :| x in pids && x in fails;
      assert x in pids[1..];
      KillStopsAtFailure(pids[1..], fails);
    }
  }
}

=== FILE: calculator.dfy ===
/** The calculator fixture: a recursive factorial and a calculator that
    records each operation as a line of text. Arguments are integers. */
module Calculator {
  import opened Base

  /** `calculate_factorial`: 1 for every `n <= 1`, negative `n` included. */
  function Factorial(n: int): (r: int)
    ensures r >= 1
    decreases if n < 0 then 0 else n
  {
    if n <= 1 then 1 else n * Factorial(n - 1)
  }

  /** The same product computed upwards, as an independent reference. */
  method FactorialIterative(n: int) returns (r: int)
    ensures r == Factorial(n)
  {
    r := 1;
    var k := 1;
    while k < n
      invariant 1 <= k <= if n >= 1 then n else 1
      invariant r == Factorial(k)
      decreases n - k
    {
      k := k + 1;
      r := k * r;
    }
    if n < 1 {
      assert k == 1 && r == 1;
      assert Factorial(n) == 1;
    } else {
      assert k == n;
    }
  }

  /** The product of the numbers from 1 to `n` other than `k`. */
  function Cofactor(n: int, k: int): int
    requires 1 <= k <= n
    decreases n
  {
    if n == k then Factorial(n - 1) else n * Cofactor(n - 1, k)
  }

  /** Every number from 1 to `n` divides `n!`: removing it from the product
      leaves a whole cofactor. */
  lemma {:induction false} FactorialDivisible(n: int, k: int)
    requires 1 <= k <= n
    ensures Factorial(n) == k * Cofactor(n, k)
    decreases n
  {
    if k < n {
      FactorialDivisible(n - 1, k);
      var c := Cofactor(n - 1, k);
      calc {
        Factorial(n);
        n * Factorial(n - 1);
        n * (k * c);
        { MulSwap(n, k, c); }
        k * (n * c);
      }
    }
  }

  lemma MulSwap(a: int, b: int, c: int)
    ensures a * (b * c) == b * (a * c)
  {
  }

  // ---------------------------------------------------------------------------
  // The calculator

  datatype Calc = Calc(history: seq<string>)

  datatype Op = AddOp(a: int, b: int) | MultiplyOp(a: int, b: int)

  /** `Calculator()`: no history yet. */
  const New: Calc := Calc([])

  function Value(op: Op): int {
    match op
    case AddOp(a, b) => a + b
    case MultiplyOp(a, b) => a * b
  }

  function Symbol(op: Op): string {
    if op.AddOp? then "+" else "*"
  }

  /** The words joined by single spaces: `" ".join(ws)`. */
  function Join(ws: seq<string>): string
    decreases |ws|
  {
    if ws == [] then [] else if |ws| == 1 then ws[0] else ws[0] + " " + Join(ws[1..])
  }

  /** The history line of an operation: `f"{a} + {b} = {result}"` or `f"{a} * {b} = {result}"`. */
  function Entry(op: Op): string {
    Join([Decimal(op.a), Symbol(op), Decimal(op.b), "=", Decimal(Value(op))])
  }

  // ---------------------------------------------------------------------------
  // Reading a history line back

  /** Index of the first space in `s`. */
  function FirstSpace(s: string): (i: nat)
    requires ' ' in s
    ensures i < |s| && s[i] == ' '
    ensures forall j :: 0 <= j < i ==> s[j] != ' '
  {
    if s[0] == ' ' then 0
    else
      assert ' ' in s[1..] by {
        var k :| 0 <= k < |s| && s[k] == ' ';
        assert s[1..][k - 1] == ' ';
      }
      1 + FirstSpace(s[1..])
  }

  /** `s.split(" ")`: the pieces between single spaces. */
  function SplitSpaces(s: string): (r: seq<string>)
    ensures r != []
    decreases |s|
  {
    if ' ' !in s then [s]
    else
      var i := FirstSpace(s);
      [s[..i]] + SplitSpaces(s[i + 1..])
  }

  lemma SplitCons(w: string, rest: string)
    requires ' ' !in w
    ensures SplitSpaces(w + " " + rest) == [w] + SplitSpaces(rest)
  {
    var s := w + " " + rest;
    assert s[|w|] == ' ';
    var i := FirstSpace(s);
    assert i == |w|;
    assert s[..i] == w;
    assert s[i + 1..] == rest;
  }

  /** The operation and the result a history line records, read back from its text. */
  function ParseEntry(line: string): Option<(Op, int)> {
    var w := SplitSpaces(line);
    if |w| != 5 || w[3] != "=" then None
    else
      match (ParseDecimal(w[0]), ParseDecimal(w[2]), ParseDecimal(w[4]))
      case (Some(a), Some(b), Some(v)) =>
        if w[1] == "+" then Some((AddOp(a, b), v))
        else if w[1] == "*" then Some((MultiplyOp(a, b), v))
        else None
      case _ => None
  }

  lemma DecimalNoSpace(n: int)
    ensures ' ' !in Decimal(n)
  {
    DecimalChars(n);
    forall k | 0 <= k < |Decimal(n)| ensures Decimal(n)[k] != ' ' {
    }
  }

  /** Space-free words joined by single spaces split back into the same words. */
  lemma {:induction false} SplitJoin(ws: seq<string>)
    requires ws != []
    requires forall i :: 0 <= i < |ws| ==> ' ' !in ws[i]
    ensures SplitSpaces(Join(ws)) == ws
    decreases |ws|
  {
    if |ws| > 1 {
      SplitJoin(ws[1..]);
      SplitCons(ws[0], Join(ws[1..]));
      assert ws == [ws[0]] + ws[1..];
    }
  }

  /** A history line names its operator and both operands, and the result
      it reports is the operation's value. */
  lemma EntryParses(op: Op)
    ensures ParseEntry(Entry(op)) == Some((op, Value(op)))
  {
    DecimalNoSpace(op.a);
    DecimalNoSpace(op.b);
    DecimalNoSpace(Value(op));
    var ws := [Decimal(op.a), Symbol(op), Decimal(op.b), "=", Decimal(Value(op))];
    assert forall i :: 0 <= i < |ws| ==> ' ' !in ws[i];
    SplitJoin(ws);
    DecimalRoundTrip(op.a);
    DecimalRoundTrip(op.b);
    DecimalRoundTrip(Value(op));
  }

  // ---------------------------------------------------------------------------
  // The calculator's calls

  /** `add(a, b)`: returns the sum and appends one history line, which
      records the two operands, the operator and the sum. */
  function Add(c: Calc, a: int, b: int): (r: (Calc, int))
    ensures r.1 == a + b
    ensures r.0.history == c.history + [Entry(AddOp(a, b))]
    ensures ParseEntry(r.0.history[|c.history|]) == Some((AddOp(a, b), r.1))
  {
    EntryParses(AddOp(a, b));
    (Calc(c.history + [Entry(AddOp(a, b))]), a + b)
  }

  /** `multiply(a, b)`: returns the product and appends one history line,
      which records the two operands, the operator and the product. */
  function Multiply(c: Calc, a: int, b: int): (r: (Calc, int))
    ensures r.1 == a * b
    ensures r.0.history == c.history + [Entry(MultiplyOp(a, b))]
    ensures ParseEntry(r.0.history[|c.history|]) == Some((MultiplyOp(a, b), r.1))
  {
    EntryParses(MultiplyOp(a, b));
    (Calc(c.history + [Entry(MultiplyOp(a, b))]), a * b)
  }

  /** `get_history`: the recorded lines, unchanged. */
  function GetHistory(c: Calc): seq<string> {
    c.history
  }

  function Apply(c: Calc, op: Op): (r: (Calc, int))
    ensures r.0.history == c.history + [Entry(op)]
    ensures r.1 == Value(op)
  {
    match op
    case AddOp(a, b) => Add(c, a, b)
    case MultiplyOp(a, b) => Multiply(c, a, b)
  }

  /** A new calculator after a sequence of calls: one line per call, in call order. */
  function Run(ops: seq<Op>): (c: Calc)
    ensures |c.history| == |ops|
    ensures forall i :: 0 <= i < |ops| ==> c.history[i] == Entry(ops[i])
  {
    Calc(seq(|ops|, i requires 0 <= i < |ops| => Entry(ops[i])))
  }

  /** `Run` is what the calls, made one after another on a new calculator, leave behind. */
  lemma RunSteps(ops: seq<Op>, op: Op)
    ensures Run([]) == New
    ensures Run(ops + [op]) == Apply(Run(ops), op).0
  {
    var h := Apply(Run(ops), op).0.history;
    assert Run(ops + [op]).history == h;
  }

  /** Every line of the history reads back as the call that produced it and that call's result. */
  lemma HistoryRecordsCalls(ops: seq<Op>)
    ensures |GetHistory(Run(ops))| == |ops|
    ensures forall i :: 0 <= i < |ops| ==> ParseEntry(GetHistory(Run(ops))[i]) == Some((ops[i], Value(ops[i])))
  {
    forall i | 0 <= i < |ops| ensures ParseEntry(Run(ops).history[i]) == Some((ops[i], Value(ops[i]))) {
      EntryParses(ops[i]);
    }
  }

  /** The history is append-only: later calls never change earlier lines. */
  lemma HistoryAppendOnly(ops: seq<Op>, more: seq<Op>)
    ensures GetHistory(Run(ops)) <= GetHistory(Run(ops + more))
  {
    var h := Run(ops).history;
    var h2 := Run(ops + more).history;
    forall i | 0 <= i < |h| ensures h[i] == h2[i] {
      assert (ops + more)[i] == ops[i];
    }
  }

  /** The decimal texts the fixture's run prints. */
  lemma FixtureNumerals()
    ensures Decimal(5) == "5" && Decimal(3) == "3" && Decimal(8) == "8"
    ensures Decimal(4) == "4" && Decimal(6) == "6" && Decimal(24) == "24"
  {
    assert Decimal(24) == "24" by {
      assert 24 / 10 == 2 && 24 % 10 == 4;
      assert Digits(24) == Digits(2) + [DigitChar(4)];
      assert DigitChar(2) == '2' && DigitChar(4) == '4';
    }
  }

  /** The two lines of the fixture's run, spelled out. */
  lemma FixtureEntries()
    ensures Entry(AddOp(5, 3)) == "5 + 3 = 8"
    ensures Entry(MultiplyOp(4, 6)) == "4 * 6 = 24"
  {
    FixtureNumerals();
    assert Join(["5", "+", "3", "=", "8"]) == "5 + 3 = 8";
    assert Join(["4", "*", "6", "=", "24"]) == "4 * 6 = 24";
  }

  /** The fixture's own run: `add(5, 3)` returns 8, `multiply(4, 6)` returns 24,
      and the history holds the two lines in call order. */
  lemma FixtureRun()
    ensures Add(New, 5, 3).1 == 8
    ensures Multiply(Add(New, 5, 3).0, 4, 6).1 == 24
    ensures GetHistory(Multiply(Add(New, 5, 3).0, 4, 6).0) == ["5 + 3 = 8", "4 * 6 = 24"]
  {
    FixtureEntries();
    var c := Add(New, 5, 3).0;
    assert c.history == ["5 + 3 = 8"];
    assert Multiply(c, 4, 6).0.history == c.history + ["4 * 6 = 24"];
  }
}

=== FILE: client.dfy ===
/** The command-line client's decisions: the heartbeat check, the record it
    submits, and the poll that waits for the record to reach a terminal
    directory. Files are observations; time is an integer clock. */
module Client {
  import opened Base
  import opened JsonValue
  import opened Exceptions
  import opened BridgeConfig
  import opened BridgeQueue

  // ---------------------------------------------------------------------------
  // Heartbeat

  /** A heartbeat older than this many seconds means the bridge is not responsive. */
  const StaleAfter: int := 15

  datatype StatusFile = NoStatusFile | StatusUnreadable(detail: string) | StatusDoc(doc: Json)

  /** The (bool, message) pair `check_bridge_status` returns, by case. */
  datatype StatusVerdict =
    | FileMissing
    | Stale(age: int)
    | Running(state: Json, pid: Json)
    | ReadError(detail: string)

  datatype StatusCheck = Reported(verdict: StatusVerdict) | StatusRaises(error: PyException)

  /** The boolean half of the returned pair. */
  predicate Responsive(v: StatusVerdict) {
    v.Running?
  }

  /** `status.get('timestamp', 0)` as a number; `bool` is a Python `int`. */
  function Heartbeat(fields: map<string, Json>): Option<int> {
    match GetOr(fields, "timestamp", Num(0))
    case Num(n) => Some(n)
    case Bool(b) => Some(if b then 1 else 0)
    case _ => None
  }

  /** `check_bridge_status` at clock reading `now`. Only decoding and I/O errors
      are caught; a status document that is not an object, or a timestamp that
      is not a number, raises out of the call. */
  function CheckBridgeStatus(f: StatusFile, now: int): (r: StatusCheck)
    ensures f.NoStatusFile? ==> r == Reported(FileMissing)
    ensures f.StatusUnreadable? ==> r == Reported(ReadError(f.detail))
    ensures r.Reported? && Responsive(r.verdict) <==>
              f.StatusDoc? && f.doc.Obj? && Heartbeat(f.doc.fields).Some? && now - Heartbeat(f.doc.fields).value <= StaleAfter
    ensures r.Reported? && r.verdict.Stale? ==> r.verdict.age > StaleAfter
    ensures r.Reported? && r.verdict.Running? ==>
              r.verdict.state == GetOr(f.doc.fields, "status", Str("unknown"))
    ensures r.StatusRaises? <==> f.StatusDoc? && (!f.doc.Obj? || Heartbeat(f.doc.fields).None?)
  {
    match f
    case NoStatusFile => Reported(FileMissing)
    case StatusUnreadable(detail) => Reported(ReadError(detail))
    case StatusDoc(doc) =>
      if !doc.Obj? then StatusRaises(NoAttribute(doc, "get"))
      else match Heartbeat(doc.fields)
        case None =>
          StatusRaises(PyException(TypeError, "unsupported operand type(s) for -: 'float' and '"
                                              + TypeName(GetOr(doc.fields, "timestamp", Num(0))) + "'"))
        case Some(stamp) =>
          if now - stamp > StaleAfter then Reported(Stale(now - stamp))
          else Reported(Running(GetOr(doc.fields, "status", Str("unknown")), GetOr(doc.fields, "pid", Null)))
  }

  /** The heartbeat rule: exactly fifteen seconds is still responsive, sixteen is not. */
  lemma StaleBoundary(now: int)
    ensures Responsive(CheckBridgeStatus(StatusDoc(Obj(map["timestamp" := Num(now - 15)])), now).verdict)
    ensures !Responsive(CheckBridgeStatus(StatusDoc(Obj(map["timestamp" := Num(now - 16)])), now).verdict)
  {
  }

  // ---------------------------------------------------------------------------
  // Submitting an action

  const ClientName: string := "claude-desktop-client-v4"

  /** The record `send_action` writes; `params or {}` turns a missing parameter
      object into an empty one. */
  function Payload(id: string, actionType: string, params: Option<map<string, Json>>, now: int): (p: map<string, Json>)
    ensures p.Keys == {"id", "action", "params", "timestamp", "status", "client"}
    ensures p["status"] == Str("pending")
    ensures p["id"] == Str(id) && p["action"] == Str(actionType)
    ensures p["params"] == Obj(if params.Some? then params.value else map[])
  {
    map[
      "id" := Str(id),
      "action" := Str(actionType),
      "params" := Obj(if params.Some? then params.value else map[]),
      "timestamp" := Num(now),
      "status" := Str("pending"),
      "client" := Str(ClientName)
    ]
  }

  /** The pending file name of an action id. */
  function RecordName(id: string): string { id + ".json" }

  /** `send_action`'s write: a plain `open(..., 'w')`, so an existing pending file
      with the same name is overwritten rather than refused. An `open` that
      raises creates nothing; a dump cut short leaves a file `json.load`
      rejects. */
  function Submit(q: Queue, id: string, actionType: string, params: Option<map<string, Json>>, now: int, write: Io): (r: Queue)
    ensures write.Succeeds? ==> r.pending == q.pending[RecordName(id) := Doc(Obj(Payload(id, actionType, params, now)))]
    ensures write.FailsWith? ==> r == q
    ensures write.Truncated? ==> r.pending == q.pending[RecordName(id) := Unreadable(write.loadError)]
    ensures r.completed == q.completed && r.failed == q.failed
  {
    match Written(Obj(Payload(id, actionType, params, now)), write)
    case None => q
    case Some(content) => q.(pending := q.pending[RecordName(id) := content])
  }

  /** A submission cut short is still picked up by the bridge, which fails it as
      `{"id": id}` with the load error instead of running the action. */
  lemma DamagedSubmissionFails(q: Queue, config: ConfigFile, backups: map<int, Record>, id: string, t: Tag,
                               params: Option<map<string, Json>>, now: int, write: Io, o: Oracle)
    requires id != [] && write.Truncated?
    ensures
      var s := ProcessActionFile(Disk(Submit(q, id, TagName(t), params, now, write), config, backups), RecordName(id), o);
      && !s.outcome.Escaped? && s.outcome.area == Failed
      && s.outcome.record == map["id" := Str(id), "status" := Str("failed"), "error" := Str(write.loadError)]
      && s.signals == []
  {
    var d := Disk(Submit(q, id, TagName(t), params, now, write), config, backups);
    StemOfRecordName(id);
    assert Load(d.queue, RecordName(id), o.vanished) == Err(PyException(ReadFailure, write.loadError));
    RecordContents(d, RecordName(id), o);
  }

  /** The bridge reads back what the client wrote: the tag routes to the
      handler it names, and the handler sees the submitted parameters. */
  lemma SubmittedRecordRoutes(id: string, t: Tag, params: Option<map<string, Json>>, now: int)
    ensures
      var p := Payload(id, TagName(t), params, now);
      && Route(ActionTag(p)) == Some(t)
      && ActionParams(p) == Obj(if params.Some? then params.value else map[])
  {
  }

  // ---------------------------------------------------------------------------
  // Waiting for the outcome

  /** One look at a terminal file: absent, present but unreadable, or decoded. */
  datatype Peek = Absent | Garbled(detail: string) | Present(doc: Json)

  /** One iteration of the poll loop: the completed file, then the failed file. */
  datatype Poll = Poll(completed: Peek, failed: Peek)

  datatype WaitResult =
    | Finished(area: Area, record: Json)
    | ResultUnreadable(area: Area)
    | TimedOut
    | WaitRaises(error: PyException)

  /** What `wait_for_completion` gives its caller: the record, `None`, or the
      exception it raises. */
  function Returned(r: WaitResult): (res: Result<Option<Json>, PyException>)
    ensures res.Err? <==> r.WaitRaises?
    ensures res.Ok? && res.value.Some? <==> r.Finished?
    ensures r.Finished? ==> res == Ok(Some(r.record))
    ensures r.WaitRaises? ==> res == Err(r.error)
  {
    match r
    case Finished(_, record) => Ok(Some(record))
    case WaitRaises(e) => Err(e)
    case _ => Ok(None)
  }

  /** A poll in which either terminal file exists. */
  predicate Hit(p: Poll) {
    !p.completed.Absent? || !p.failed.Absent?
  }

  /** The decision one poll makes when it finds a file; the completed file is
      looked at first. Printing the outcome calls `.get` on the document, which
      raises when it is not an object. */
  function Decide(p: Poll): (r: WaitResult)
    requires Hit(p)
    ensures !r.TimedOut?
    ensures r.Finished? ==> r.record.Obj?
    ensures r.WaitRaises? ==> r.error.kind == AttributeError
  {
    var (area, peek) := if !p.completed.Absent? then (Completed, p.completed) else (Failed, p.failed);
    match peek
    case Garbled(_) => ResultUnreadable(area)
    case Present(doc) => if doc.Obj? then Finished(area, doc) else WaitRaises(NoAttribute(doc, "get"))
    case Absent => TimedOut
  }

  /** `wait_for_completion` over the polls that start before the timeout. */
  function WaitForCompletion(polls: seq<Poll>): (r: WaitResult)
    ensures r.TimedOut? <==> forall i :: 0 <= i < |polls| ==> !Hit(polls[i])
    ensures !r.TimedOut? ==>
              exists k :: 0 <= k < |polls| && Hit(polls[k]) && r == Decide(polls[k])
                          && forall i :: 0 <= i < k ==> !Hit(polls[i])
    ensures r.Finished? && r.area == Failed ==>
              exists k :: 0 <= k < |polls| && polls[k].completed.Absent? && polls[k].failed == Present(r.record)
    ensures r.Finished? && r.area == Completed ==>
              exists k :: 0 <= k < |polls| && polls[k].completed == Present(r.record)
  {
    if polls == [] then TimedOut
    else if Hit(polls[0]) then Decide(polls[0])
    else
      var r := WaitForCompletion(polls[1..]);
      assert forall i :: 1 <= i < |polls| ==> polls[i] == polls[1..][i - 1];
      r
  }

  /** A record that reaches a terminal directory before the timeout is returned
      whatever happened in earlier polls, and an unreadable terminal file ends
      the wait with `None` even when more polls remain. */
  lemma {:induction false} WaitStopsAtFirstHit(before: seq<Poll>, p: Poll, after: seq<Poll>)
    requires forall i :: 0 <= i < |before| ==> !Hit(before[i])
    requires Hit(p)
    ensures WaitForCompletion(before + [p] + after) == Decide(p)
  {
    if before != [] {
      assert (before + [p] + after)[1..] == before[1..] + [p] + after;
      WaitStopsAtFirstHit(before[1..], p, after);
    }
  }

  /** `send_action` once the payload is built: the write, then the wait. An
      IOError from the write is caught and gives `None`; an exception the wait
      raises propagates to the caller. `polls` are what the wait sees. */
  function SendAction(q: Queue, id: string, actionType: string, params: Option<map<string, Json>>, now: int,
                      write: Io, polls: seq<Poll>): (r: (Queue, Result<Option<Json>, PyException>))
    ensures r.0 == Submit(q, id, actionType, params, now, write)
    ensures !write.Succeeds? ==> r.1 == Ok(None)
    ensures write.Succeeds? ==> r.1 == Returned(WaitForCompletion(polls))
    ensures r.1.Ok? && r.1.value.Some? ==>
              && write.Succeeds? && r.1.value.value.Obj?
              && exists k :: 0 <= k < |polls| &&
                   (polls[k].completed == Present(r.1.value.value) || polls[k].failed == Present(r.1.value.value))
    ensures r.1.Err? ==> write.Succeeds? && r.1.error.kind == AttributeError
    ensures write.Succeeds? && (forall i :: 0 <= i < |polls| ==> !Hit(polls[i])) ==> r.1 == Ok(None)
  {
    var q' := Submit(q, id, actionType, params, now, write);
    if !write.Succeeds? then (q', Ok(None)) else (q', Returned(WaitForCompletion(polls)))
  }

  // ---------------------------------------------------------------------------
  // Client and bridge together

  function Look(area: map<string, Record>, name: string): Peek {
    if name !in area then Absent
    else match area[name]
      case Unreadable(detail) => Garbled(detail)
      case Doc(j) => Present(j)
  }

  /** What one poll of `wait_for_completion` sees in the queue directories. */
  function Observe(q: Queue, id: string): Poll {
    Poll(Look(q.completed, RecordName(id)), Look(q.failed, RecordName(id)))
  }

  /** A readable object record, processed with working file writes and no
      same-named terminal file, is moved out of pending into exactly one terminal
      directory, and the next poll returns it. */
  lemma ProcessedRecordArrives(d: Disk, name: string, o: Oracle)
    requires d.queue.Disjoint()
    requires name in d.queue.pending && d.queue.pending[name].Doc? && d.queue.pending[name].json.Obj?
    requires o.recordWrite.Succeeds? && o.rename.Renamed?
    ensures
      var s := ProcessActionFile(d, name, o);
      && s.outcome.Moved?
      && s.disk.queue.Disjoint()
      && s.disk.queue.Names() == d.queue.Names()
      && WaitForCompletion([Poll(Look(s.disk.queue.completed, name), Look(s.disk.queue.failed, name))])
           == Finished(s.outcome.area, Obj(s.outcome.record))
  {
    var s := ProcessActionFile(d, name, o);
    assert name !in d.queue.completed && name !in d.queue.failed;
    ObjectRecordMoves(d, name, o);
    PollFindsRecord(s.disk.queue, name, s.outcome.area, s.outcome.record);
  }

  /** A poll that sees the record in exactly one terminal directory returns it. */
  lemma PollFindsRecord(q: Queue, name: string, area: Area, record: map<string, Json>)
    requires q.Disjoint()
    requires name in q.Terminal(area) && q.Terminal(area)[name] == Doc(Obj(record))
    ensures WaitForCompletion([Poll(Look(q.completed, name), Look(q.failed, name))]) == Finished(area, Obj(record))
  {
    if area == Failed {
      assert name !in q.completed;
    }
  }

  /** A submitted action, once processed with working file writes, lands in a
      terminal directory under its own name, still carrying its id, and the
      client's next poll returns that record. */
  lemma SubmitProcessWait(q: Queue, config: ConfigFile, backups: map<int, Record>, id: string, t: Tag,
                          params: Option<map<string, Json>>, now: int, o: Oracle)
    requires q.Disjoint()
    requires RecordName(id) !in q.completed && RecordName(id) !in q.failed
    requires o.recordWrite.Succeeds? && o.rename.Renamed?
    ensures
      var q1 := Submit(q, id, TagName(t), params, now, Succeeds);
      var s := ProcessActionFile(Disk(q1, config, backups), RecordName(id), o);
      && s.outcome.Moved?
      && s.disk.queue.Disjoint()
      && s.disk.queue.Names() == q.Names() + {RecordName(id)}
      && s.outcome.record["id"] == Str(id)
      && WaitForCompletion([Observe(s.disk.queue, id)]) == Finished(s.outcome.area, Obj(s.outcome.record))
  {
    var name := RecordName(id);
    var q1 := Submit(q, id, TagName(t), params, now, Succeeds);
    var payload := Payload(id, TagName(t), params, now);
    assert q1.pending[name] == Doc(Obj(payload));
    assert q1.Disjoint();
    assert q1.Names() == q.Names() + {name};
    var d := Disk(q1, config, backups);
    ProcessedRecordArrives(d, name, o);
    RecordKeepsId(d, name, o, payload);
  }

  /** Processing a readable object record keeps its `id` field. */
  lemma RecordKeepsId(d: Disk, name: string, o: Oracle, fields: map<string, Json>)
    requires Load(d.queue, name, o.vanished) == Ok(Obj(fields)) && "id" in fields
    ensures ProcessActionFile(d, name, o).outcome.record["id"] == fields["id"]
  {
    RecordContents(d, name, o);
  }
}

=== FILE: exceptions.dfy ===
/** Python exceptions as data: the class that matters for `except` clauses and
    the text `str(e)` yields, which is what ends up in a failed record. */
module Exceptions {
  import opened JsonValue

  datatype Kind =
    | ValueError
    | FileNotFound
    | ReadFailure      // OSError or json.JSONDecodeError while loading a file
    | WriteFailure     // OSError while writing or renaming a file
    | AttributeError
    | TypeError
    | ProcessFailure   // psutil.NoSuchProcess / AccessDenied, or Popen failing

  datatype PyException = PyException(kind: Kind, text: string)

  /** Calling a `dict` method such as `.get` on a value that is not a `dict`. */
  function NoAttribute(j: Json, attribute: string): PyException {
    PyException(AttributeError, "'" + TypeName(j) + "' object has no attribute '" + attribute + "'")
  }

  /** `value[key] = item` with a string key on a value that is not a `dict`. */
  function NoItemAssignment(j: Json): PyException {
    if j.Arr? then PyException(TypeError, "list indices must be integers or slices, not str")
    else PyException(TypeError, "'" + TypeName(j) + "' object does not support item assignment")
  }
}

=== FILE: json_value.dfy ===
/** Decoded JSON documents, as the Python code sees them after `json.load`:
    `None`, `bool`, `int`, `str`, `list` and `dict`. Objects are maps, so the
    key order Python keeps is not represented; numbers are integers. */
module JsonValue {
  import opened Base

  datatype Json =
    | Null
    | Bool(b: bool)
    | Num(n: int)
    | Str(s: string)
    | Arr(items: seq<Json>)
    | Obj(fields: map<string, Json>)

  /** Python truthiness of the decoded value (`if value:`). */
  predicate Truthy(j: Json) {
    match j
    case Null => false
    case Bool(b) => b
    case Num(n) => n != 0
    case Str(s) => s != []
    case Arr(items) => items != []
    case Obj(fields) => fields != map[]
  }

  /** The name Python reports for the value's type in error messages. */
  function TypeName(j: Json): string {
    match j
    case Null => "NoneType"
    case Bool(_) => "bool"
    case Num(_) => "int"
    case Str(_) => "str"
    case Arr(_) => "list"
    case Obj(_) => "dict"
  }

  /** `str(value)` for the scalar values; lists and objects are abbreviated. */
  function Display(j: Json): string {
    match j
    case Null => "None"
    case Bool(b) => if b then "True" else "False"
    case Num(n) => Decimal(n)
    case Str(s) => s
    case Arr(_) => "[...]"
    case Obj(_) => "{...}"
  }

  /** `d.get(key, default)` on a dictionary. */
  function GetOr(fields: map<string, Json>, key: string, default: Json): (r: Json)
    ensures key in fields ==> r == fields[key]
    ensures key !in fields ==> r == default
  {
    if key in fields then fields[key] else default
  }
}

=== FILE: shell_quote.dfy ===
/** The single-quote escaping applied before text is placed between single
    quotes inside an `sh -c` or `bash -c` script: every `'` becomes `'\''`
    (close the quoted run, an escaped quote, reopen). The meaning of the
    resulting word follows the Shell Command Language of IEEE Std 1003.1-2017,
    section 2.2.1 "Escape Character (Backslash)" and section 2.2.2
    "Single-Quotes". */
module ShellQuote {
  import opened Base

  const Quote: char := '\''
  const Backslash: char := '\\'

  /** Number of single quotes in `s`. */
  function Quotes(s: string): nat {
    if s == [] then 0 else (if s[0] == Quote then 1 else 0) + Quotes(s[1..])
  }

  /** `s.replace("'", "'\\''")`. */
  function Escape(s: string): (r: string)
    ensures |r| == |s| + 3 * Quotes(s)
    ensures Quotes(s) == 0 ==> r == s
  {
    if s == [] then []
    else if s[0] == Quote then [Quote, Backslash, Quote, Quote] + Escape(s[1..])
    else [s[0]] + Escape(s[1..])
  }

  /** `'{escaped}'`: the escaped text between single quotes. */
  function QuoteArg(s: string): string {
    [Quote] + Escape(s) + [Quote]
  }

  /** Prefixes `p` to an optional word value. */
  function Prepend(p: string, w: Option<string>): Option<string> {
    if w.Some? then Some(p + w.value) else None
  }

  /** The inside of a single-quoted run: everything up to the next `'`, which
      closes it, and the text after that quote. No character inside is special. */
  function Quoted(w: string): (r: Option<(string, string)>)
    ensures r.None? <==> Quote !in w
    ensures r.Some? ==> Quote !in r.value.0 && w == r.value.0 + [Quote] + r.value.1
  {
    if w == [] then None
    else if w[0] == Quote then Some(([], w[1..]))
    else
      var q := Quoted(w[1..]);
      if q.None? then None else Some(([w[0]] + q.value.0, q.value.1))
  }

  /** The value of a shell word made of single-quoted runs and backslash-escaped
      characters. Any other unquoted character is rejected (None): the escaping
      never produces one, and the model does not describe the shell's other
      expansions. */
  function Word(w: string): Option<string>
    decreases |w|
  {
    if w == [] then Some([])
    else if w[0] == Quote then
      var q := Quoted(w[1..]);
      if q.None? then None else Prepend(q.value.0, Word(q.value.1))
    else if w[0] == Backslash && |w| >= 2 then Prepend([w[1]], Word(w[2..]))
    else None
  }

  lemma WordOpen(x: string)
    ensures Word([Quote] + x) == (if Quoted(x).None? then None else Prepend(Quoted(x).value.0, Word(Quoted(x).value.1)))
  {
    assert ([Quote] + x)[1..] == x;
  }

  lemma WordEscaped(c: char, x: string)
    ensures Word([Backslash, c] + x) == Prepend([c], Word(x))
  {
    assert ([Backslash, c] + x)[2..] == x;
  }

  lemma QuotedClose(x: string)
    ensures Quoted([Quote] + x) == Some(([], x))
  {
    assert ([Quote] + x)[1..] == x;
  }

  lemma QuotedCons(c: char, x: string)
    requires c != Quote
    ensures Quoted([c] + x) == (if Quoted(x).None? then None else Some(([c] + Quoted(x).value.0, Quoted(x).value.1)))
  {
    assert ([c] + x)[1..] == x;
  }

  lemma PrependTwice(a: string, b: string, w: Option<string>)
    ensures Prepend(a, Prepend(b, w)) == Prepend(a + b, w)
  {
    if w.Some? {
      assert a + (b + w.value) == (a + b) + w.value;
    }
  }

  /** One ordinary character just inside an opening quote joins the value of that quoted run. */
  lemma QuotedChar(c: char, x: string)
    requires c != Quote
    ensures Word([Quote] + ([c] + x)) == Prepend([c], Word([Quote] + x))
  {
    WordOpen([c] + x);
    WordOpen(x);
    QuotedCons(c, x);
    if Quoted(x).Some? {
      PrependTwice([c], Quoted(x).value.0, Word(Quoted(x).value.1));
    }
  }

  /** The word `'` + escaped `s` + `'` + `t`. */
  function Wrapped(s: string, t: string): string {
    [Quote] + (Escape(s) + ([Quote] + t))
  }

  lemma WrappedEmpty(t: string)
    ensures Word(Wrapped([], t)) == Word(t)
  {
    assert Wrapped([], t) == [Quote] + ([Quote] + t);
    WordOpen([Quote] + t);
    QuotedClose(t);
    PrependTwice([], [], Word(t));
    if Word(t).Some? {
      assert [] + Word(t).value == Word(t).value;
    }
  }

  /** A quote in the text closes the run, contributes an escaped `'`, and reopens. */
  lemma WrappedQuote(s: string, t: string)
    requires s != [] && s[0] == Quote
    ensures Word(Wrapped(s, t)) == Prepend([Quote], Word(Wrapped(s[1..], t)))
  {
    var tail := Wrapped(s[1..], t);
    assert Escape(s) == [Quote, Backslash, Quote, Quote] + Escape(s[1..]);
    assert Wrapped(s, t) == [Quote] + ([Quote] + ([Backslash, Quote] + tail));
    WordOpen([Quote] + ([Backslash, Quote] + tail));
    QuotedClose([Backslash, Quote] + tail);
    WordEscaped(Quote, tail);
    PrependTwice([], [Quote], Word(tail));
    assert [] + [Quote] == [Quote];
  }

  lemma WrappedChar(s: string, t: string)
    requires s != [] && s[0] != Quote
    ensures Word(Wrapped(s, t)) == Prepend([s[0]], Word(Wrapped(s[1..], t)))
  {
    var x := Escape(s[1..]) + ([Quote] + t);
    assert Escape(s) == [s[0]] + Escape(s[1..]);
    assert Wrapped(s, t) == [Quote] + ([s[0]] + x);
    QuotedChar(s[0], x);
  }

  /** The escaped text of `s` inside single quotes, followed by any word `t`,
      denotes `s` followed by the value of `t`. */
  lemma {:induction false} QuotedPrefix(s: string, t: string)
    ensures Word(Wrapped(s, t)) == Prepend(s, Word(t))
    decreases |s|
  {
    if s == [] {
      WrappedEmpty(t);
      if Word(t).Some? {
        assert [] + Word(t).value == Word(t).value;
      }
    } else {
      if s[0] == Quote {
        WrappedQuote(s, t);
      } else {
        WrappedChar(s, t);
      }
      QuotedPrefix(s[1..], t);
      PrependTwice([s[0]], s[1..], Word(t));
      assert [s[0]] + s[1..] == s;
    }
  }

  /** The escaping is faithful: the quoted word denotes exactly the original text,
      whatever quotes, backslashes or other shell characters it contains. */
  lemma QuoteArgDenotes(s: string)
    ensures Word(QuoteArg(s)) == Some(s)
  {
    QuotedPrefix(s, []);
    assert QuoteArg(s) == Wrapped(s, []);
    assert s + [] == s;
  }

  /** Escaping is injective: two different texts never give the same quoted word. */
  lemma EscapeInjective(s: string, t: string)
    requires Escape(s) == Escape(t)
    ensures s == t
  {
    QuoteArgDenotes(s);
    QuoteArgDenotes(t);
  }
}

=== FILE: sync_auth.dfy ===
/** The credential synchronisation script's decisions: which user, which
    distribution supplies the credentials, whether an API key can be
    extracted, and which distributions receive a copy. Every `wsl.exe` call is
    an observation per distribution: whether the credentials file is there,
    whether reading it succeeds and what it decodes to, and whether each write
    step succeeds. */
module SyncAuth {
  import opened Base
  import opened JsonValue
  import opened Exceptions
  import opened ShellQuote
  import opened WslCommand
  import opened WslList
  import opened WslProbe

  // ---------------------------------------------------------------------------
  // Paths and user

  function CredentialDir(user: string): string {
    "/home/" + user + "/.claude"
  }

  function CredentialPath(user: string): string {
    CredentialDir(user) + "/.credentials.json"
  }

  /** `if not username: username = os.getenv('USERNAME')`, failing when both are
      missing or empty. */
  function ResolveUsername(arg: Option<string>, env: Option<string>): (r: Option<string>)
    ensures r.Some? ==> r.value != [] && (r == arg || r == env)
    ensures arg.Some? && arg.value != [] ==> r == arg
    ensures r.None? <==> (arg.None? || arg.value == []) && (env.None? || env.value == [])
  {
    if arg.Some? && arg.value != [] then arg
    else if env.Some? && env.value != [] then env
    else None
  }

  // ---------------------------------------------------------------------------
  // Reading

  /** What one distribution answers: the exit status of `test -f` on the
      credentials path, that of `cat`, and the decoding of the stripped text
      (`None` for a JSON decoding error). */
  datatype CredFile = CredFile(testOk: bool, catOk: bool, parsed: Option<Json>)

  /** `read_credentials`. */
  function ReadCredentials(f: CredFile): (r: Option<Json>)
    ensures r.Some? <==> f.testOk && f.catOk && f.parsed.Some?
    ensures r.Some? ==> r == f.parsed
  {
    if !f.testOk || !f.catOk then None else f.parsed
  }

  /** The commands `read_credentials` issues: `cat` only after the test succeeded. */
  function ReadCommands(f: CredFile, dist: string, user: string): (cmds: seq<seq<string>>)
    ensures |cmds| == if f.testOk then 2 else 1
    ensures ParseRunArgv(cmds[0]) == Some((["test", "-f", CredentialPath(user)], if dist != [] then Some(dist) else None))
    ensures f.testOk ==>
              ParseRunArgv(cmds[1]) == Some((["cat", CredentialPath(user)], if dist != [] then Some(dist) else None))
  {
    RunArgvRoundTrip(["test", "-f", CredentialPath(user)], Some(dist));
    RunArgvRoundTrip(["cat", CredentialPath(user)], Some(dist));
    [RunArgv(["test", "-f", CredentialPath(user)], Some(dist))]
      + (if f.testOk then [RunArgv(["cat", CredentialPath(user)], Some(dist))] else [])
  }

  // ---------------------------------------------------------------------------
  // The API key

  const OauthKey: string := "claudeAiOauth"
  const TokenKey: string := "accessToken"

  /** `extract_api_key`: `credentials.get('claudeAiOauth', {}).get('accessToken', '')`
      after returning `""` for missing or empty credentials. Either `.get`
      raises AttributeError when applied to something other than an object. */
  function ExtractApiKey(creds: Option<Json>): (r: Result<Json, PyException>)
    ensures creds.None? || !Truthy(creds.value) ==> r == Ok(Str(""))
    ensures (&& creds.Some? && Truthy(creds.value) && creds.value.Obj? && OauthKey in creds.value.fields
             && creds.value.fields[OauthKey].Obj? && TokenKey in creds.value.fields[OauthKey].fields)
            ==> r == Ok(creds.value.fields[OauthKey].fields[TokenKey])
    ensures creds.Some? && creds.value.Obj? && OauthKey !in creds.value.fields ==> r == Ok(Str(""))
    ensures (&& creds.Some? && creds.value.Obj? && OauthKey in creds.value.fields && creds.value.fields[OauthKey].Obj?
             && TokenKey !in creds.value.fields[OauthKey].fields)
            ==> r == Ok(Str(""))
    ensures r.Err? <==> creds.Some? && Truthy(creds.value)
                        && (!creds.value.Obj? || !GetOr(creds.value.fields, OauthKey, Obj(map[])).Obj?)
    ensures r.Err? ==> r.error.kind == AttributeError
  {
    if creds.None? || !Truthy(creds.value) then Ok(Str(""))
    else if !creds.value.Obj? then Err(NoAttribute(creds.value, "get"))
    else
      var oauth := GetOr(creds.value.fields, OauthKey, Obj(map[]));
      if !oauth.Obj? then Err(NoAttribute(oauth, "get"))
      else Ok(GetOr(oauth.fields, TokenKey, Str("")))
  }

  // ---------------------------------------------------------------------------
  // Writing

  /** The `bash -c` script of `write_credentials`. The JSON text is escaped and
      single-quoted, so the shell's `echo` receives exactly that text; the path
      is placed between quotes without escaping. */
  function WriteScript(text: string, path: string): (r: string)
    ensures exists w :: Word(w) == Some(text) && r == "echo " + w + " > '" + path + "'"
  {
    QuoteArgDenotes(text);
    "echo " + QuoteArg(text) + " > '" + path + "'"
  }

  /** The outcome of the two steps of `write_credentials` in one distribution. */
  datatype WriteRun = WriteRun(mkdirOk: bool, bashOk: bool)

  /** `write_credentials`: the commands issued and the boolean returned. The
      write is not attempted when `mkdir -p` fails. */
  function WriteCredentials(dist: string, user: string, text: string, w: WriteRun): (r: (seq<seq<string>>, bool))
    ensures r.1 <==> w.mkdirOk && w.bashOk
    ensures |r.0| == if w.mkdirOk then 2 else 1
    ensures ParseRunArgv(r.0[0]) == Some((["mkdir", "-p", CredentialDir(user)], if dist != [] then Some(dist) else None))
    ensures w.mkdirOk ==>
              ParseRunArgv(r.0[1]) == Some((["bash", "-c", WriteScript(text, CredentialPath(user))], if dist != [] then Some(dist) else None))
  {
    var mkdir := ["mkdir", "-p", CredentialDir(user)];
    var write := ["bash", "-c", WriteScript(text, CredentialPath(user))];
    RunArgvRoundTrip(mkdir, Some(dist));
    RunArgvRoundTrip(write, Some(dist));
    if !w.mkdirOk then ([RunArgv(mkdir, Some(dist))], false)
    else ([RunArgv(mkdir, Some(dist)), RunArgv(write, Some(dist))], w.bashOk)
  }

  // ---------------------------------------------------------------------------
  // Synchronisation

  /** The names of the listed distributions, in order. */
  function Names(ds: seq<Dist>): (r: seq<string>)
    ensures |r| == |ds| && forall i :: 0 <= i < |ds| ==> r[i] == ds[i].name
  {
    if ds == [] then [] else [ds[0].name] + Names(ds[1..])
  }

  /** The order sources are tried in: the Ubuntu distribution, then every
      listed distribution (the Ubuntu one again among them). */
  function Candidates(ubuntu: Option<Dist>, ds: seq<Dist>): seq<string> {
    (if ubuntu.Some? then [ubuntu.value.name] else []) + Names(ds)
  }

  /** A distribution that can serve as the source: the existence probe says yes
      and the credentials read are truthy. */
  predicate Usable(name: string, probe: string -> bool, files: string -> CredFile) {
    probe(name) && ReadCredentials(files(name)).Some? && Truthy(ReadCredentials(files(name)).value)
  }

  /** The first usable candidate and its credentials. */
  function FindSource(names: seq<string>, probe: string -> bool, files: string -> CredFile): (r: Option<(string, Json)>)
    ensures r.None? <==> forall i :: 0 <= i < |names| ==> !Usable(names[i], probe, files)
    ensures r.Some? ==> exists k :: 0 <= k < |names| && names[k] == r.value.0 && Usable(names[k], probe, files)
                                    && forall i :: 0 <= i < k ==> !Usable(names[i], probe, files)
    ensures r.Some? ==> r.value.1 == ReadCredentials(files(r.value.0)).value
  {
    if names == [] then None
    else if Usable(names[0], probe, files) then Some((names[0], ReadCredentials(files(names[0])).value))
    else
      var r := FindSource(names[1..], probe, files);
      assert forall i :: 1 <= i < |names| ==> names[i] == names[1..][i - 1];
      assert r.Some? ==> exists k :: 1 <= k < |names| && names[k] == r.value.0 && Usable(names[k], probe, files)
                                    && forall i :: 0 <= i < k ==> !Usable(names[i], probe, files) by {
        if r.Some? {
          var k :| 0 <= k < |names[1..]| && names[1..][k] == r.value.0 && Usable(names[1..][k], probe, files)
                   && forall i :: 0 <= i < k ==> !Usable(names[1..][i], probe, files);
          assert names[k + 1] == r.value.0;
        }
      }
      r
  }

  /** Every listed distribution other than the source, in list order. */
  function Targets(ds: seq<Dist>, source: string): (r: seq<string>)
    ensures forall x :: x in r <==> x != source && exists i :: 0 <= i < |ds| && ds[i].name == x
    ensures |r| <= |ds|
  {
    if ds == [] then []
    else
      var rest := Targets(ds[1..], source);
      assert forall i :: 1 <= i < |ds| ==> ds[i] == ds[1..][i - 1];
      if ds[0].name != source then [ds[0].name] + rest else rest
  }

  /** Whether every write in `targets` succeeds; every one is attempted either way. */
  function AllWritten(targets: seq<string>, writes: string -> WriteRun): (ok: bool)
    ensures ok <==> forall i :: 0 <= i < |targets| ==> writes(targets[i]).mkdirOk && writes(targets[i]).bashOk
  {
    if targets == [] then true
    else
      var rest := AllWritten(targets[1..], writes);
      assert forall i :: 1 <= i < |targets| ==> targets[i] == targets[1..][i - 1];
      (writes(targets[0]).mkdirOk && writes(targets[0]).bashOk) && rest
  }

  /** `extract_api_key` returns a truthy key for these credentials. */
  predicate KeyUsable(creds: Json) {
    ExtractApiKey(Some(creds)).Ok? && Truthy(ExtractApiKey(Some(creds)).value)
  }

  /** Both steps of `write_credentials` succeed in every listed distribution other than `source`. */
  predicate EveryTargetWritten(ds: seq<Dist>, source: string, writes: string -> WriteRun) {
    forall i :: 0 <= i < |Targets(ds, source)| ==> writes(Targets(ds, source)[i]).mkdirOk && writes(Targets(ds, source)[i]).bashOk
  }

  datatype SyncOutcome =
    | NoUser
    | NoDistributions
    | NoSource
    | NoApiKey(source: string)
    | SyncRaises(source: string, error: PyException)
    | Synced(source: string, attempted: seq<string>, ok: bool)

  /** The boolean the function returns; `SyncRaises` returns nothing (the
      exception ends the script). */
  predicate Succeeded(r: SyncOutcome) {
    r.Synced? && r.ok
  }

  /** `sync_credentials_between_all_distributions`. `ds` is the listing, which
      `get_ubuntu_distribution` is taken to see as well; `probe` is the
      existence check for the credentials path in each distribution. */
  function SyncCredentials(arg: Option<string>, env: Option<string>, ds: seq<Dist>,
                           probe: string -> bool, files: string -> CredFile, writes: string -> WriteRun): (r: SyncOutcome)
    ensures ResolveUsername(arg, env).None? <==> r == NoUser
    ensures ResolveUsername(arg, env).Some? && ds == [] ==> r == NoDistributions
    ensures r.NoSource? <==>
              (&& ResolveUsername(arg, env).Some? && ds != []
               && forall i :: 0 <= i < |Candidates(GetUbuntu(ds), ds)| ==> !Usable(Candidates(GetUbuntu(ds), ds)[i], probe, files))
    ensures r.Synced? || r.NoApiKey? || r.SyncRaises? ==>
              && r.source in Candidates(GetUbuntu(ds), ds)
              && Usable(r.source, probe, files)
    ensures r.Synced? ==> forall x :: x in r.attempted <==> x != r.source && exists i :: 0 <= i < |ds| && ds[i].name == x
    ensures r.Synced? ==> (r.ok <==> forall i :: 0 <= i < |r.attempted| ==> writes(r.attempted[i]).mkdirOk && writes(r.attempted[i]).bashOk)
    ensures r.Synced? ==> ExtractApiKey(ReadCredentials(files(r.source))).Ok?
                          && Truthy(ExtractApiKey(ReadCredentials(files(r.source))).value)
    ensures Succeeded(r) <==>
              && ResolveUsername(arg, env).Some? && ds != []
              && FindSource(Candidates(GetUbuntu(ds), ds), probe, files).Some?
              && KeyUsable(FindSource(Candidates(GetUbuntu(ds), ds), probe, files).value.1)
              && EveryTargetWritten(ds, FindSource(Candidates(GetUbuntu(ds), ds), probe, files).value.0, writes)
  {
    SyncFrom(ResolveUsername(arg, env), ds, FindSource(Candidates(GetUbuntu(ds), ds), probe, files), writes)
  }

  /** The rest of the run once the user, the listing and the source search
      are known. */
  function SyncFrom(user: Option<string>, ds: seq<Dist>, found: Option<(string, Json)>, writes: string -> WriteRun): (r: SyncOutcome)
    ensures user.None? <==> r == NoUser
    ensures user.Some? && ds == [] ==> r == NoDistributions
    ensures r.NoSource? <==> user.Some? && ds != [] && found.None?
    ensures r.Synced? || r.NoApiKey? || r.SyncRaises? ==> found.Some? && r.source == found.value.0
    ensures r.Synced? ==> forall x :: x in r.attempted <==> x != r.source && exists i :: 0 <= i < |ds| && ds[i].name == x
    ensures r.Synced? ==> (r.ok <==> forall i :: 0 <= i < |r.attempted| ==> writes(r.attempted[i]).mkdirOk && writes(r.attempted[i]).bashOk)
    ensures r.Synced? ==> ExtractApiKey(Some(found.value.1)).Ok? && Truthy(ExtractApiKey(Some(found.value.1)).value)
    ensures user.Some? && ds != [] && found.Some? ==>
              && (r.Synced? <==> KeyUsable(found.value.1))
              && (ExtractApiKey(Some(found.value.1)).Err? ==>
                    r == SyncRaises(found.value.0, ExtractApiKey(Some(found.value.1)).error))
              && (ExtractApiKey(Some(found.value.1)).Ok? && !Truthy(ExtractApiKey(Some(found.value.1)).value) ==>
                    r == NoApiKey(found.value.0))
              && (r.Synced? ==> r.attempted == Targets(ds, found.value.0))
    ensures Succeeded(r) <==>
              user.Some? && ds != [] && found.Some? && KeyUsable(found.value.1) && EveryTargetWritten(ds, found.value.0, writes)
  {
    if user.None? then NoUser
    else if ds == [] then NoDistributions
    else if found.None? then NoSource
    else
      var (source, creds) := found.value;
      match ExtractApiKey(Some(creds))
      case Err(e) => SyncRaises(source, e)
      case Ok(key) =>
        if !Truthy(key) then NoApiKey(source)
        else
          var targets := Targets(ds, source);
          Synced(source, targets, AllWritten(targets, writes))
  }

  /** An Ubuntu distribution whose credentials are usable is always the source. */
  lemma UbuntuPreferred(arg: Option<string>, env: Option<string>, ds: seq<Dist>,
                        probe: string -> bool, files: string -> CredFile, writes: string -> WriteRun)
    requires ResolveUsername(arg, env).Some?
    requires GetUbuntu(ds).Some? && Usable(GetUbuntu(ds).value.name, probe, files)
    ensures var r := SyncCredentials(arg, env, ds, probe, files, writes);
            (r.Synced? || r.NoApiKey? || r.SyncRaises?) && r.source == GetUbuntu(ds).value.name
  {
    var names := Candidates(GetUbuntu(ds), ds);
    assert names[0] == GetUbuntu(ds).value.name;
  }

  /** The source never receives a copy of its own credentials. */
  lemma SourceNotWritten(arg: Option<string>, env: Option<string>, ds: seq<Dist>,
                         probe: string -> bool, files: string -> CredFile, writes: string -> WriteRun)
    ensures var r := SyncCredentials(arg, env, ds, probe, files, writes);
            r.Synced? ==> r.source !in r.attempted
  {
  }

  /** Only credentials that pass `read_credentials`' own `test -f` can be
      chosen, so any existence probe that says yes for every distribution
      holding the file yields the same run; in particular the probe that says
      yes everywhere. */
  lemma {:induction false} FindSourceProbeInsensitive(names: seq<string>, p1: string -> bool, p2: string -> bool,
                                                      files: string -> CredFile)
    requires forall n :: files(n).testOk ==> p1(n) && p2(n)
    ensures FindSource(names, p1, files) == FindSource(names, p2, files)
  {
    if names != [] {
      assert Usable(names[0], p1, files) == Usable(names[0], p2, files);
      FindSourceProbeInsensitive(names[1..], p1, p2, files);
    }
  }

  /** The helper as written (which says yes for every existing and every
      missing file) and the helper with the intended decision give the same
      synchronisation, whenever the file a probe looks at is the file
      `read_credentials` tests. */
  lemma ProbeDefectMasked(arg: Option<string>, env: Option<string>, ds: seq<Dist>,
                          files: string -> CredFile, writes: string -> WriteRun)
    requires ResolveUsername(arg, env).Some?
    ensures
      var path := CredentialPath(ResolveUsername(arg, env).value);
      var asWritten := (n: string) => FileExistsAsWritten(path, None, files(n).testOk);
      var intended := (n: string) => FileExists(path, None, files(n).testOk);
      SyncCredentials(arg, env, ds, asWritten, files, writes) == SyncCredentials(arg, env, ds, intended, files, writes)
  {
    var path := CredentialPath(ResolveUsername(arg, env).value);
    assert !IsDrivePath(path) by {
      assert path[1] == 'h';
    }
    var asWritten := (n: string) => FileExistsAsWritten(path, None, files(n).testOk);
    var intended := (n: string) => FileExists(path, None, files(n).testOk);
    ProbesSayPresent(path, files);
    FindSourceProbeInsensitive(Candidates(GetUbuntu(ds), ds), asWritten, intended, files);
  }

  /** Both probes say yes for every distribution whose credentials file passes `test -f`. */
  lemma ProbesSayPresent(path: string, files: string -> CredFile)
    requires !IsDrivePath(path)
    ensures forall n :: files(n).testOk ==> FileExistsAsWritten(path, None, files(n).testOk) && FileExists(path, None, files(n).testOk)
  {
    MissingFileReadsAsPresent(path, None);
    FileExistsDecidesProbe(path, None, true);
  }
}

=== FILE: wsl_command.dfy ===
/** The argument vector `run_command` hands to `subprocess.run`: `wsl.exe`,
    an optional distribution selector, the `--` separator, then the command's
    own arguments untouched. No shell sees the vector itself, so no quoting
    is applied to it. */
module WslCommand {
  import opened Base

  const WslExe: string := "wsl.exe"
  const DistributionFlag: string := "--distribution"
  const EndOfOptions: string := "--"

  /** Python's `if distribution:` — both `None` and the empty name select the default distribution. */
  predicate Selects(distribution: Option<string>) {
    distribution.Some? && distribution.value != []
  }

  /** `['wsl.exe'] + wsl_args` as built by `run_command` and `_run_wsl_command`. */
  function RunArgv(command: seq<string>, distribution: Option<string>): (argv: seq<string>)
    ensures |argv| == |command| + (if Selects(distribution) then 4 else 2)
    ensures argv[0] == WslExe
    ensures argv[|argv| - |command|..] == command
    ensures argv[|argv| - |command| - 1] == EndOfOptions
  {
    [WslExe] + (if Selects(distribution) then [DistributionFlag, distribution.value] else []) + [EndOfOptions] + command
  }

  /** Reads a `wsl.exe` vector back into the distribution it selects and the
      command it runs. */
  function ParseRunArgv(argv: seq<string>): Option<(seq<string>, Option<string>)> {
    if |argv| >= 4 && argv[0] == WslExe && argv[1] == DistributionFlag && argv[2] != [] && argv[3] == EndOfOptions then
      Some((argv[4..], Some(argv[2])))
    else if |argv| >= 2 && argv[0] == WslExe && argv[1] == EndOfOptions then
      Some((argv[2..], None))
    else None
  }

  /** The vector determines the command exactly, and names the distribution
      exactly when a non-empty one was given. */
  lemma RunArgvRoundTrip(command: seq<string>, distribution: Option<string>)
    ensures ParseRunArgv(RunArgv(command, distribution))
              == Some((command, if Selects(distribution) then distribution else None))
  {
    var argv := RunArgv(command, distribution);
    if Selects(distribution) {
      assert argv[4..] == command;
    } else {
      assert argv[2..] == command;
    }
  }
}

=== FILE: wsl_list.dfy ===
/** `list_distributions` and the two selection rules built on it. The text of
    `wsl --list --verbose` is stripped, split into lines, the header line is
    dropped, and each remaining line is matched against
    `\*?\s*(\S+)\s+(\S+)\s+(\S+)` after stripping it; a line that does not
    match is skipped. */
module WslList {
  import opened Base

  /** One `DistributionInfo`. */
  datatype Dist = Dist(name: string, state: string, version: string, isDefault: bool)

  // ---------------------------------------------------------------------------
  // Lines

  /** The line boundaries of `str.splitlines()`. */
  predicate IsLineBreak(c: char) {
    || c == '\n' || c == '\r' || c == '\U{b}' || c == '\U{c}'
    || '\U{1c}' <= c <= '\U{1e}'
    || c == '\U{85}' || c == '\U{2028}' || c == '\U{2029}'
  }

  predicate NoLineBreak(s: string) {
    forall i :: 0 <= i < |s| ==> !IsLineBreak(s[i])
  }

  /** Index of the first line boundary, or `|s|`. */
  function BreakAt(s: string): (r: nat)
    ensures r <= |s|
    ensures forall i :: 0 <= i < r ==> !IsLineBreak(s[i])
    ensures r < |s| ==> IsLineBreak(s[r])
  {
    if s == [] || IsLineBreak(s[0]) then 0 else 1 + BreakAt(s[1..])
  }

  /** `str.splitlines()`: `\r\n` is one boundary, and a final boundary does not
      start an empty last line. */
  function SplitLines(s: string): (r: seq<string>)
    ensures forall k :: 0 <= k < |r| ==> NoLineBreak(r[k])
    ensures s == [] <==> r == []
    decreases |s|
  {
    if s == [] then []
    else
      var i := BreakAt(s);
      if i == |s| then [s]
      else
        var skip := if s[i] == '\r' && i + 1 < |s| && s[i + 1] == '\n' then 2 else 1;
        [s[..i]] + SplitLines(s[i + skip..])
  }

  lemma {:induction false} BreakAtPrefix(line: string, rest: string)
    requires NoLineBreak(line)
    requires rest != [] ==> IsLineBreak(rest[0])
    ensures BreakAt(line + rest) == |line|
    decreases |line|
  {
    if line != [] {
      assert (line + rest)[1..] == line[1..] + rest;
      BreakAtPrefix(line[1..], rest);
    }
  }

  /** A line ended by `\n` is split off whole. */
  lemma SplitLinesCons(line: string, rest: string)
    requires NoLineBreak(line)
    ensures SplitLines(line + "\n" + rest) == [line] + SplitLines(rest)
  {
    var s := line + "\n" + rest;
    BreakAtPrefix(line, "\n" + rest);
    assert s == line + ("\n" + rest);
    assert s[..|line|] == line;
    assert s[|line| + 1..] == rest;
  }

  lemma SplitLinesOne(line: string)
    requires line != [] && NoLineBreak(line)
    ensures SplitLines(line) == [line]
  {
    BreakAtPrefix(line, []);
    assert line + [] == line;
  }

  // ---------------------------------------------------------------------------
  // One line

  /** Length of the longest prefix of non-space characters (`\S+`, greedy). */
  function SpanWord(s: string): (n: nat)
    ensures n <= |s|
    ensures forall i :: 0 <= i < n ==> !IsSpace(s[i])
    ensures n < |s| ==> IsSpace(s[n])
  {
    if s == [] || IsSpace(s[0]) then 0 else 1 + SpanWord(s[1..])
  }

  /** Length of the longest prefix of space characters (`\s+`, greedy). */
  function SpanSpace(s: string): (n: nat)
    ensures n <= |s|
    ensures forall i :: 0 <= i < n ==> IsSpace(s[i])
    ensures n < |s| ==> !IsSpace(s[n])
  {
    if s == [] || !IsSpace(s[0]) then 0 else 1 + SpanSpace(s[1..])
  }

  /** `(\S+)\s+(\S+)\s+(\S+)` matched at the start of `t`. Greedy runs cannot
      give back characters usefully here, so the first run of each kind is taken
      whole. */
  function Fields3(t: string): (r: Option<(string, string, string)>)
    ensures r.Some? ==> && r.value.0 != [] && NoSpace(r.value.0)
                        && r.value.1 != [] && NoSpace(r.value.1)
                        && r.value.2 != [] && NoSpace(r.value.2)
  {
    var n1 := SpanWord(t);
    var t1 := t[n1..];
    var w1 := SpanSpace(t1);
    var t2 := t1[w1..];
    var n2 := SpanWord(t2);
    var t3 := t2[n2..];
    var w2 := SpanSpace(t3);
    var t4 := t3[w2..];
    var n3 := SpanWord(t4);
    if n1 == 0 || w1 == 0 || n2 == 0 || w2 == 0 || n3 == 0 then None
    else Some((t[..n1], t2[..n2], t4[..n3]))
  }

  /** One entry line of the listing. `is_default` is whether the stripped line
      starts with `*`. The optional `*` of the expression is tried consumed
      first; when the rest then lacks three fields, the `*` is read as the
      start of the name. */
  function ParseLine(line: string): (r: Option<Dist>)
    ensures r.Some? ==> (r.value.isDefault <==> Strip(line) != [] && Strip(line)[0] == '*')
    ensures r.Some? ==> && r.value.name != [] && NoSpace(r.value.name)
                        && r.value.state != [] && NoSpace(r.value.state)
                        && r.value.version != [] && NoSpace(r.value.version)
  {
    ParseStripped(Strip(line))
  }

  /** The match on an already stripped line. */
  function ParseStripped(s: string): (r: Option<Dist>)
    ensures r.Some? ==> (r.value.isDefault <==> s != [] && s[0] == '*')
    ensures r.Some? ==> && r.value.name != [] && NoSpace(r.value.name)
                        && r.value.state != [] && NoSpace(r.value.state)
                        && r.value.version != [] && NoSpace(r.value.version)
  {
    var isDefault := s != [] && s[0] == '*';
    var m := if isDefault then
               (var starred := Fields3(StripLeft(s[1..])); if starred.Some? then starred else Fields3(s))
             else Fields3(StripLeft(s));
    if m.None? then None else Some(Dist(m.value.0, m.value.1, m.value.2, isDefault))
  }

  /** The entries `f` finds in `lines`, in order; lines it rejects are dropped. */
  function Collect(lines: seq<string>, f: string -> Option<Dist>): (r: seq<Dist>)
    ensures |r| <= |lines|
  {
    if lines == [] then []
    else if f(lines[0]).Some? then [f(lines[0]).value] + Collect(lines[1..], f)
    else Collect(lines[1..], f)
  }

  /** The entry lines in order, unmatched ones dropped. */
  function ParseLines(lines: seq<string>): (r: seq<Dist>)
    ensures |r| <= |lines|
  {
    Collect(lines, ParseLine)
  }

  /** `list_distributions` given the exit status and standard output of
      `wsl.exe --list --verbose`. */
  function ListDistributions(exit: int, stdout: string): (r: seq<Dist>)
    ensures exit != 0 ==> r == []
    ensures |SplitLines(Strip(stdout))| <= 1 ==> r == []
    ensures exit == 0 && |SplitLines(Strip(stdout))| > 1 ==> r == ParseLines(SplitLines(Strip(stdout))[1..])
  {
    if exit != 0 then []
    else
      var lines := SplitLines(Strip(stdout));
      if |lines| <= 1 then [] else ParseLines(lines[1..])
  }

  // ---------------------------------------------------------------------------
  // Rendering: the inverse of the parser

  /** Entries `wsl --list --verbose` can print and the parser reads back: three
      non-empty fields without white space, and a non-default name that does
      not itself start with `*`. */
  predicate WellFormed(d: Dist) {
    && d.name != [] && NoSpace(d.name)
    && d.state != [] && NoSpace(d.state)
    && d.version != [] && NoSpace(d.version)
    && (d.isDefault || d.name[0] != '*')
  }

  function Render(d: Dist): string {
    (if d.isDefault then "* " else "  ") + Fields(d)
  }

  lemma {:induction false} SpanWordPrefix(w: string, rest: string)
    requires NoSpace(w)
    requires rest != [] ==> IsSpace(rest[0])
    ensures SpanWord(w + rest) == |w|
    decreases |w|
  {
    if w != [] {
      assert (w + rest)[1..] == w[1..] + rest;
      SpanWordPrefix(w[1..], rest);
    }
  }

  lemma SpanOneSpace(rest: string)
    requires rest != [] && !IsSpace(rest[0])
    ensures SpanSpace(" " + rest) == 1
  {
    assert (" " + rest)[1..] == rest;
  }

  lemma Fields3Reads(a: string, b: string, c: string)
    requires a != [] && NoSpace(a) && b != [] && NoSpace(b) && c != [] && NoSpace(c)
    ensures Fields3(a + " " + b + " " + c) == Some((a, b, c))
  {
    var t := a + " " + b + " " + c;
    SpanWordPrefix(a, " " + b + " " + c);
    assert t == a + (" " + b + " " + c);
    assert t[..|a|] == a;
    var t1 := t[|a|..];
    assert t1 == " " + (b + " " + c);
    SpanOneSpace(b + " " + c);
    var t2 := t1[1..];
    assert t2 == b + (" " + c);
    SpanWordPrefix(b, " " + c);
    assert t2[..|b|] == b;
    var t3 := t2[|b|..];
    assert t3 == " " + c;
    SpanOneSpace(c);
    var t4 := t3[1..];
    assert t4 == c;
    SpanWordPrefix(c, []);
    assert c + [] == c;
    assert t4[..|c|] == c;
  }

  lemma StripLeftTwoSpaces(x: string)
    requires x != [] && !IsSpace(x[0])
    ensures StripLeft("  " + x) == x
  {
    assert ("  " + x)[1..] == " " + x;
    assert (" " + x)[1..] == x;
  }

  /** The three fields of an entry, separated by single spaces. */
  function Fields(d: Dist): string {
    d.name + " " + d.state + " " + d.version
  }

  lemma FieldsEnds(d: Dist)
    requires WellFormed(d)
    ensures Fields(d) != [] && Fields(d)[0] == d.name[0]
    ensures !IsSpace(Fields(d)[0]) && !IsSpace(Fields(d)[|Fields(d)| - 1])
  {
    var f := Fields(d);
    assert f[|f| - 1] == d.version[|d.version| - 1];
    assert f[0] == d.name[0];
  }

  lemma StripRender(d: Dist)
    requires WellFormed(d)
    ensures Strip(Render(d)) == (if d.isDefault then "* " + Fields(d) else Fields(d))
  {
    FieldsEnds(d);
    var f := Fields(d);
    if d.isDefault {
      var s := "* " + f;
      assert Render(d) == s;
      assert s[|s| - 1] == f[|f| - 1];
      StripFixed(s);
    } else {
      assert Render(d) == "  " + f;
      StripLeftTwoSpaces(f);
      StripFixed(f);
    }
  }

  lemma ParseStrippedStar(d: Dist)
    requires WellFormed(d) && d.isDefault
    ensures ParseStripped("* " + Fields(d)) == Some(d)
  {
    FieldsEnds(d);
    var f := Fields(d);
    StarStripLeft(f);
    Fields3Reads(d.name, d.state, d.version);
    assert Fields3(StripLeft(("* " + f)[1..])) == Some((d.name, d.state, d.version));
  }

  lemma StarStripLeft(f: string)
    requires f != [] && !IsSpace(f[0])
    ensures StripLeft(("* " + f)[1..]) == f
  {
    assert ("* " + f)[1..] == " " + f;
    assert (" " + f)[1..] == f;
  }

  lemma ParseStrippedPlain(d: Dist)
    requires WellFormed(d) && !d.isDefault
    ensures ParseStripped(Fields(d)) == Some(d)
  {
    FieldsEnds(d);
    Fields3Reads(d.name, d.state, d.version);
  }

  /** Every well-formed entry, rendered as a listing line, parses back to itself. */
  lemma ParseRender(d: Dist)
    requires WellFormed(d)
    ensures ParseLine(Render(d)) == Some(d)
  {
    StripRender(d);
    if d.isDefault {
      ParseStrippedStar(d);
    } else {
      ParseStrippedPlain(d);
    }
  }

  /** `g` applied to each entry, in order. */
  function MapLines(ds: seq<Dist>, g: Dist -> string): (r: seq<string>)
    ensures |r| == |ds|
  {
    if ds == [] then [] else [g(ds[0])] + MapLines(ds[1..], g)
  }

  function RenderAll(ds: seq<Dist>): (r: seq<string>)
    ensures |r| == |ds|
  {
    MapLines(ds, Render)
  }

  /** Reading back what was written: when `f` inverts `g` on every entry,
      collecting `f` over the written lines gives the entries back. */
  lemma {:induction false} CollectInverts(ds: seq<Dist>, g: Dist -> string, f: string -> Option<Dist>)
    requires forall d :: d in ds ==> f(g(d)) == Some(d)
    ensures Collect(MapLines(ds, g), f) == ds
  {
    if ds != [] {
      var lines := MapLines(ds, g);
      assert ds[0] in ds;
      assert lines[0] == g(ds[0]) && lines[1..] == MapLines(ds[1..], g);
      assert forall d :: d in ds[1..] ==> d in ds;
      CollectInverts(ds[1..], g, f);
      assert ds == [ds[0]] + ds[1..];
    }
  }

  lemma ParseRenderAll(ds: seq<Dist>)
    requires forall d :: d in ds ==> WellFormed(d)
    ensures ParseLines(RenderAll(ds)) == ds
  {
    forall d | d in ds ensures ParseLine(Render(d)) == Some(d) {
      ParseRender(d);
    }
    CollectInverts(ds, Render, ParseLine);
  }

  /** The entry lines joined by newlines. */
  function Rows(ds: seq<Dist>): string
    requires ds != []
  {
    if |ds| == 1 then Render(ds[0]) else Render(ds[0]) + "\n" + Rows(ds[1..])
  }

  /** A listing: a header line, then one line per entry. */
  function Table(header: string, ds: seq<Dist>): string {
    if ds == [] then header else header + "\n" + Rows(ds)
  }

  lemma RenderNoBreak(d: Dist)
    requires WellFormed(d)
    ensures NoLineBreak(Render(d)) && Render(d) != []
    ensures !IsSpace(Render(d)[|Render(d)| - 1])
  {
    var r := Render(d);
    assert r[|r| - 1] == d.version[|d.version| - 1];
    forall i | 0 <= i < |r| ensures !IsLineBreak(r[i]) {
      var p := if d.isDefault then "* " else "  ";
      assert r == p + d.name + " " + d.state + " " + d.version;
      if i < 2 {
      } else if i < 2 + |d.name| {
        assert r[i] == d.name[i - 2];
      } else if i == 2 + |d.name| {
      } else if i < 3 + |d.name| + |d.state| {
        assert r[i] == d.state[i - 3 - |d.name|];
      } else if i == 3 + |d.name| + |d.state| {
      } else {
        assert r[i] == d.version[i - 4 - |d.name| - |d.state|];
      }
    }
  }

  lemma {:induction false} SplitRows(ds: seq<Dist>)
    requires ds != []
    requires forall d :: d in ds ==> WellFormed(d)
    ensures SplitLines(Rows(ds)) == RenderAll(ds)
    ensures Rows(ds) != [] && !IsSpace(Rows(ds)[|Rows(ds)| - 1])
  {
    RenderNoBreak(ds[0]);
    if |ds| == 1 {
      SplitLinesOne(Render(ds[0]));
      assert RenderAll(ds) == [Render(ds[0])];
    } else {
      assert ds[1..][0] in ds;
      SplitRows(ds[1..]);
      SplitLinesCons(Render(ds[0]), Rows(ds[1..]));
      var r := Rows(ds);
      assert r[|r| - 1] == Rows(ds[1..])[|Rows(ds[1..])| - 1];
    }
  }

  /** The parser is the inverse of the listing format: a listing whose header
      has no white space at either end reads back as exactly its entries, in
      order, whatever the header says. */
  lemma ListRoundTrip(header: string, ds: seq<Dist>)
    requires header != [] && NoLineBreak(header)
    requires !IsSpace(header[0]) && !IsSpace(header[|header| - 1])
    requires forall d :: d in ds ==> WellFormed(d)
    ensures ListDistributions(0, Table(header, ds)) == ds
  {
    var t := Table(header, ds);
    if ds == [] {
      StripFixed(header);
      SplitLinesOne(header);
    } else {
      SplitRows(ds);
      assert t[0] == header[0];
      assert t[|t| - 1] == Rows(ds)[|Rows(ds)| - 1];
      StripFixed(t);
      SplitLinesCons(header, Rows(ds));
      ParseRenderAll(ds);
      assert SplitLines(t)[1..] == RenderAll(ds);
    }
  }

  lemma Fields3TwoWords(a: string, b: string)
    requires a != [] && NoSpace(a) && b != [] && NoSpace(b)
    ensures Fields3(a + " " + b).None?
  {
    var t := a + " " + b;
    SpanWordPrefix(a, " " + b);
    assert t == a + (" " + b);
    assert t[|a|..] == " " + b;
    SpanOneSpace(b);
    assert (" " + b)[1..] == b;
    SpanWordPrefix(b, []);
    assert b + [] == b;
    assert b[|b|..] == [];
  }

  /** A starred line whose remainder lacks three fields reads the `*` as part
      of the name, and still counts as the default entry: `* Ubuntu Running`
      is the default entry named `*`, in state `Ubuntu`, of version `Running`. */
  lemma StarFallsBackIntoName(a: string, b: string)
    requires a != [] && NoSpace(a) && b != [] && NoSpace(b)
    ensures ParseLine("* " + a + " " + b) == Some(Dist("*", a, b, true))
  {
    var s := "* " + a + " " + b;
    assert s[0] == '*' && s[|s| - 1] == b[|b| - 1];
    StripFixed(s);
    StarFallback(a, b);
  }

  lemma StarFallback(a: string, b: string)
    requires a != [] && NoSpace(a) && b != [] && NoSpace(b)
    ensures ParseStripped("* " + a + " " + b) == Some(Dist("*", a, b, true))
  {
    var s := "* " + a + " " + b;
    StarRest(a, b);
    StarWhole(a, b);
    StarMatchFallsBack(s);
  }

  lemma StarRest(a: string, b: string)
    requires a != [] && NoSpace(a) && b != [] && NoSpace(b)
    ensures Fields3(StripLeft(("* " + a + " " + b)[1..])).None?
  {
    var s := "* " + a + " " + b;
    var t := a + " " + b;
    assert s[1..] == " " + t;
    assert t[0] == a[0];
    assert (" " + t)[1..] == t;
    assert StripLeft(" " + t) == t;
    Fields3TwoWords(a, b);
  }

  lemma StarWhole(a: string, b: string)
    requires a != [] && NoSpace(a) && b != [] && NoSpace(b)
    ensures Fields3("* " + a + " " + b) == Some(("*", a, b))
  {
    assert "*" + " " == "* ";
    assert NoSpace("*");
    Fields3Reads("*", a, b);
  }

  lemma StarMatchFallsBack(s: string)
    ensures s != [] && s[0] == '*' && Fields3(StripLeft(s[1..])).None? && Fields3(s).Some? ==>
      ParseStripped(s) == Some(Dist(Fields3(s).value.0, Fields3(s).value.1, Fields3(s).value.2, true))
  {
  }

  // ---------------------------------------------------------------------------
  // Selection

  /** Index of the first entry satisfying `p`, or `|ds|`. */
  function FirstIndex(ds: seq<Dist>, p: Dist -> bool): (k: nat)
    ensures k <= |ds|
    ensures forall i :: 0 <= i < k ==> !p(ds[i])
    ensures k < |ds| ==> p(ds[k])
  {
    if ds == [] || p(ds[0]) then 0 else 1 + FirstIndex(ds[1..], p)
  }

  /** The first entry satisfying `p`. */
  function FirstWhere(ds: seq<Dist>, p: Dist -> bool): (r: Option<Dist>)
    ensures r.None? <==> forall i :: 0 <= i < |ds| ==> !p(ds[i])
    ensures r.Some? ==> exists k :: 0 <= k < |ds| && ds[k] == r.value && p(ds[k]) && forall i :: 0 <= i < k ==> !p(ds[i])
  {
    var k := FirstIndex(ds, p);
    if k < |ds| then Some(ds[k]) else None
  }

  /** `get_default_distribution`: the first entry marked default. */
  function GetDefault(ds: seq<Dist>): (r: Option<Dist>)
    ensures r.None? <==> forall d :: d in ds ==> !d.isDefault
    ensures r.Some? ==> r.value in ds && r.value.isDefault
    ensures r.Some? ==> exists k :: 0 <= k < |ds| && ds[k] == r.value && forall i :: 0 <= i < k ==> !ds[i].isDefault
  {
    FirstWhere(ds, (d: Dist) => d.isDefault)
  }

  /** A name containing `ubuntu` in any letter case. */
  predicate IsUbuntu(d: Dist) {
    Contains(Lower(d.name), "ubuntu")
  }

  /** The exact names tried, most preferred first. */
  const Preferred: seq<string> := ["Ubuntu-24.04", "Ubuntu-22.04", "Ubuntu"]

  /** The first entry named `version`, ignoring letter case. */
  function Named(ds: seq<Dist>, version: string): Option<Dist> {
    FirstWhere(ds, (d: Dist) => Lower(d.name) == Lower(version))
  }

  /** The first entry named like one of `versions`, trying the versions in order. */
  function FirstPreferred(ds: seq<Dist>, versions: seq<string>): (r: Option<Dist>)
    ensures r.Some? ==> r.value in ds && exists v :: v in versions && Lower(r.value.name) == Lower(v)
    ensures r.None? <==> forall v, d :: v in versions && d in ds ==> Lower(d.name) != Lower(v)
  {
    if versions == [] then None
    else
      var r := Named(ds, versions[0]);
      if r.Some? then r
      else
        var rest := FirstPreferred(ds, versions[1..]);
        assert forall v :: v in versions ==> v == versions[0] || v in versions[1..];
        rest
  }

  lemma PreferredAreUbuntu(d: Dist)
    requires exists v :: v in Preferred && Lower(d.name) == Lower(v)
    ensures IsUbuntu(d)
  {
    var v :| v in Preferred && Lower(d.name) == Lower(v);
    assert v[..6] == "Ubuntu";
    assert Lower(v)[..6] == "ubuntu" by {
      forall i | 0 <= i < 6 ensures Lower(v)[i] == "ubuntu"[i] {
        assert Lower(v)[i] == LowerChar(v[i]);
      }
    }
    assert "ubuntu" <= Lower(d.name);
  }

  /** `get_ubuntu_distribution`: an Ubuntu default first, then the preferred
      exact names in order, then any name containing `ubuntu`. */
  function GetUbuntu(ds: seq<Dist>): (r: Option<Dist>)
    ensures r.Some? ==> r.value in ds && IsUbuntu(r.value)
    ensures r.None? <==> forall d :: d in ds ==> !IsUbuntu(d)
    ensures GetDefault(ds).Some? && IsUbuntu(GetDefault(ds).value) ==> r == GetDefault(ds)
    ensures !(GetDefault(ds).Some? && IsUbuntu(GetDefault(ds).value)) && Named(ds, Preferred[0]).Some? ==>
              r == Named(ds, Preferred[0])
    ensures (&& !(GetDefault(ds).Some? && IsUbuntu(GetDefault(ds).value))
             && Named(ds, Preferred[0]).None? && Named(ds, Preferred[1]).Some?) ==>
              r == Named(ds, Preferred[1])
    ensures (&& !(GetDefault(ds).Some? && IsUbuntu(GetDefault(ds).value))
             && Named(ds, Preferred[0]).None? && Named(ds, Preferred[1]).None? && Named(ds, Preferred[2]).Some?) ==>
              r == Named(ds, Preferred[2])
    ensures !(GetDefault(ds).Some? && IsUbuntu(GetDefault(ds).value)) && FirstPreferred(ds, Preferred).None? ==>
              r == FirstWhere(ds, IsUbuntu)
  {
    if ds == [] then None
    else
      var def := GetDefault(ds);
      if def.Some? && IsUbuntu(def.value) then def
      else
        var exact := FirstPreferred(ds, Preferred);
        assert Preferred[1..][0] == Preferred[1] && Preferred[1..][1..] == [Preferred[2]];
        assert Named(ds, Preferred[0]).None? ==> exact == FirstPreferred(ds, Preferred[1..]);
        if exact.Some? then
          PreferredAreUbuntu(exact.value);
          exact
        else
          FirstWhere(ds, IsUbuntu)
  }
}

=== FILE: wsl_path.dfy ===
/** `convert_path_to_windows`: a WSL mount path `/mnt/<drive>/...` becomes
    `<DRIVE>:\...`. The recogniser is the regular expression
    `^/mnt/([a-z])(/.*)?$` under Python's `re.match`, where `.` does not match a
    newline and `$` also matches just before one final newline. */
module WslPath {
  import opened Base

  const MountPrefix: string := "/mnt/"

  predicate IsDriveLetter(c: char) {
    'a' <= c <= 'z'
  }

  /** `s.replace(a, b)` for single characters: every `a` becomes `b` and every
      other character is kept. */
  function Replaced(s: string, a: char, b: char): (r: string)
    ensures |r| == |s|
    ensures forall i :: 0 <= i < |s| ==> r[i] == if s[i] == a then b else s[i]
    ensures a != b ==> a !in r
  {
    seq(|s|, i requires 0 <= i < |s| => if s[i] == a then b else s[i])
  }

  /** `path.replace("/", "\\")`. */
  function Backslashed(s: string): string {
    Replaced(s, '/', '\\')
  }

  /** The text a regular-expression match leaves for group 2, absent group
      counted as empty: the part after the drive letter without one final
      newline, provided it is empty or a `/` followed by no newline. */
  predicate PathTail(body: string) {
    body == [] || (body[0] == '/' && '\n' !in body)
  }

  /** The match of the mount-path expression: the drive letter and group 2 (or ""). */
  function MountMatch(p: string): (r: Option<(char, string)>)
    ensures r.Some? ==> IsDriveLetter(r.value.0) && PathTail(r.value.1)
    ensures r.Some? ==> p == MountPrefix + [r.value.0] + r.value.1 || p == MountPrefix + [r.value.0] + r.value.1 + "\n"
  {
    if |p| >= 6 && p[..5] == MountPrefix && IsDriveLetter(p[5]) then
      var rest := p[6..];
      var body := if EndsWith(rest, "\n") then rest[..|rest| - 1] else rest;
      assert p == p[..5] + [p[5]] + rest;
      if PathTail(body) then Some((p[5], body)) else None
    else None
  }

  /** `convert_path_to_windows`: `None` for a missing or empty path, the drive
      form for a mount path, the input itself for anything else. */
  function ConvertPathToWindows(path: Option<string>): (r: Option<string>)
    ensures path.None? || path == Some([]) ==> r.None?
    ensures path.Some? && path.value != [] && MountMatch(path.value).None? ==> r == path
    ensures r.Some? ==> r.value != []
  {
    if path.None? || path.value == [] then None
    else match MountMatch(path.value)
      case None => path
      case Some((drive, tail)) => Some([UpperChar(drive)] + ":" + Backslashed(tail))
  }

  /** The mount path of a drive letter and a tail. */
  function MountPath(drive: char, tail: string): string {
    MountPrefix + [drive] + tail
  }

  /** Every mount path is recognised, with exactly its drive letter and tail. */
  lemma MountPathMatches(drive: char, tail: string)
    requires IsDriveLetter(drive) && PathTail(tail)
    ensures MountMatch(MountPath(drive, tail)) == Some((drive, tail))
  {
    var p := MountPath(drive, tail);
    assert p[..5] == MountPrefix;
    assert p[5] == drive;
    assert p[6..] == tail;
    if tail != [] {
      assert tail[|tail| - 1] in tail;
    }
  }

  /** A mount path becomes its upper-cased drive, a colon, and its tail with
      every `/` turned into `\`; `/mnt/c` alone becomes `C:`. */
  lemma ConvertMountPath(drive: char, tail: string)
    requires IsDriveLetter(drive) && PathTail(tail)
    ensures ConvertPathToWindows(Some(MountPath(drive, tail))) == Some([UpperChar(drive)] + ":" + Backslashed(tail))
    ensures 'A' <= UpperChar(drive) <= 'Z'
  {
    MountPathMatches(drive, tail);
  }

  /** Every `\` turned back into `/`. */
  function Slashed(s: string): string {
    Replaced(s, '\\', '/')
  }

  /** The inverse direction for a drive path whose tail uses only backslashes. */
  function DriveToMount(win: string): Option<string> {
    if |win| >= 2 && 'A' <= win[0] <= 'Z' && win[1] == ':' then
      Some(MountPrefix + [LowerChar(win[0])] + Slashed(win[2..]))
    else None
  }

  /** Turning slashes into backslashes and back restores a text without backslashes. */
  lemma SlashedBackslashed(tail: string)
    requires '\\' !in tail
    ensures Slashed(Backslashed(tail)) == tail
  {
    forall i | 0 <= i < |tail| ensures Slashed(Backslashed(tail))[i] == tail[i] {
      assert tail[i] in tail;
    }
  }

  /** Converting a mount path whose tail holds no backslash and mapping the
      result back gives the original path. */
  lemma ConvertRoundTrip(drive: char, tail: string)
    requires IsDriveLetter(drive) && PathTail(tail) && '\\' !in tail
    ensures DriveToMount(ConvertPathToWindows(Some(MountPath(drive, tail))).value) == Some(MountPath(drive, tail))
  {
    ConvertMountPath(drive, tail);
    var win := [UpperChar(drive)] + ":" + Backslashed(tail);
    assert win[2..] == Backslashed(tail);
    SlashedBackslashed(tail);
  }

  /** Paths the expression rejects come back unchanged: a two-letter drive,
      an upper-case drive, a path outside `/mnt`, and a tail with an inner newline. */
  lemma NonMountPathsUnchanged()
    ensures ConvertPathToWindows(Some("/mnt/cd")) == Some("/mnt/cd")
    ensures ConvertPathToWindows(Some("/mnt/C/x")) == Some("/mnt/C/x")
    ensures ConvertPathToWindows(Some("/home/u")) == Some("/home/u")
    ensures ConvertPathToWindows(Some("/mnt/c/a\nb")) == Some("/mnt/c/a\nb")
  {
    assert "/mnt/cd"[6..] == "d";
    assert "/mnt/c/a\nb"[6..] == "/a\nb";
    assert "/a\nb"[2] == '\n';
  }

  /** One final newline is dropped by the `$` anchor: `/mnt/c/x` followed by a
      newline converts as `/mnt/c/x` does. */
  lemma FinalNewlineDropped()
    ensures ConvertPathToWindows(Some("/mnt/c/x\n")) == Some("C:\\x")
    ensures ConvertPathToWindows(Some("/mnt/c")) == Some("C:")
  {
    assert UpperChar('c') == 'C';
    assert "/mnt/c/x\n"[..5] == MountPrefix && "/mnt/c/x\n"[6..] == "/x\n";
    assert "/x\n"[..2] == "/x";
    assert MountMatch("/mnt/c/x\n") == Some(('c', "/x"));
    assert Backslashed("/x") == "\\x";
    assert "/mnt/c"[..5] == MountPrefix && "/mnt/c"[6..] == "";
    assert MountMatch("/mnt/c") == Some(('c', ""));
    assert Backslashed("") == "";
    assert ['C'] + ":" + "\\x" == "C:\\x";
    assert ['C'] + ":" + "" == "C:";
  }
}

=== FILE: wsl_probe.dfy ===
/** `file_exists` and `directory_exists`: a path given in drive form is first
    converted with `wslpath`, then a shell test prints `exists` or
    `not exists`, and the helper decides from that output. As written the
    decision is `"exists" in stdout`, which the output `not exists` also
    satisfies; `ReadsPresent` is the decision the helper evidently intends. */
module WslProbe {
  import opened Base
  import opened ShellQuote
  import opened WslCommand

  datatype TestKind = FileTest | DirectoryTest

  function TestFlag(kind: TestKind): string {
    if kind == FileTest then "-f" else "-d"
  }

  /** `re.match(r'^[a-zA-Z]:', path)`: a path in Windows drive form. */
  predicate IsDrivePath(path: string) {
    |path| >= 2 && ('a' <= path[0] <= 'z' || 'A' <= path[0] <= 'Z') && path[1] == ':'
  }

  /** The script run under `sh -c`; the path is the only quoted word and it
      denotes exactly the path. */
  function ProbeScript(kind: TestKind, path: string): (r: string)
    ensures exists w :: Word(w) == Some(path)
                        && r == "test " + TestFlag(kind) + " " + w + " && echo 'exists' || echo 'not exists'"
  {
    QuoteArgDenotes(path);
    "test " + TestFlag(kind) + " " + QuoteArg(path) + " && echo 'exists' || echo 'not exists'"
  }

  /** The argument vector of the probe. */
  function ProbeArgv(kind: TestKind, path: string, distribution: Option<string>): (argv: seq<string>)
    ensures ParseRunArgv(argv).Some? && ParseRunArgv(argv).value.0 == ["sh", "-c", ProbeScript(kind, path)]
  {
    RunArgvRoundTrip(["sh", "-c", ProbeScript(kind, path)], distribution);
    RunArgv(["sh", "-c", ProbeScript(kind, path)], distribution)
  }

  /** What the script prints: the test succeeds exactly when the object is there. */
  function ProbeOutput(present: bool): string {
    if present then "exists\n" else "not exists\n"
  }

  /** The decision as written: `"exists" in result.stdout`. */
  predicate ReadsPresentAsWritten(stdout: string) {
    Contains(stdout, "exists")
  }

  /** The decision as intended: the script printed `exists` and nothing else. */
  predicate ReadsPresent(stdout: string) {
    Strip(stdout) == "exists"
  }

  /** The helper as written. A drive-form path that `wslpath` cannot convert
      (`converted` is None) is reported absent without probing. */
  predicate FileExistsAsWritten(path: string, converted: Option<string>, present: bool) {
    if IsDrivePath(path) && converted.None? then false
    else ReadsPresentAsWritten(ProbeOutput(present))
  }

  /** The helper with the intended decision. */
  predicate FileExists(path: string, converted: Option<string>, present: bool) {
    if IsDrivePath(path) && converted.None? then false
    else ReadsPresent(ProbeOutput(present))
  }

  /** As written, a missing file is reported present: the output `not exists`
      contains `exists`. */
  lemma MissingFileReadsAsPresent(path: string, converted: Option<string>)
    requires !IsDrivePath(path) || converted.Some?
    ensures FileExistsAsWritten(path, converted, false)
    ensures forall present: bool :: FileExistsAsWritten(path, converted, present)
  {
    var s := ProbeOutput(false);
    assert s[4..] == "exists\n";
    ContainsAt(s, "exists", 4);
    var t := ProbeOutput(true);
    ContainsAt(t, "exists", 0);
  }

  lemma StripProbeOutput(present: bool)
    ensures Strip(ProbeOutput(present)) == if present then "exists" else "not exists"
  {
    var s := ProbeOutput(present);
    var body := if present then "exists" else "not exists";
    assert s == body + "\n";
    assert s[..|s| - 1] == body;
    assert StripRight(s) == StripRight(body);
    StripFixed(body);
    assert StripLeft(s) == s;
  }

  /** With the intended decision the helper reports exactly whether the object
      is there, for every path the helper gets to probe. */
  lemma FileExistsDecidesProbe(path: string, converted: Option<string>, present: bool)
    requires !IsDrivePath(path) || converted.Some?
    ensures FileExists(path, converted, present) == present
  {
    StripProbeOutput(present);
  }
}
